=== FILE: README.md ===
# Client notifications server: endpoint registry and path joiner

This project models, in Dafny, the two pieces of logic at the heart of the client
notifications server.

- **The endpoint registry** (`EndpointStore`). It is a map from endpoint id to the
  endpoint's state, with two bounds: how many endpoints may exist, and how many
  notifications each endpoint may queue. The state of an endpoint is its queue, its
  `enabled` flag, its creation time and its last-interaction time.
  - Endpoints are created, reconfigured and deleted.
  - A notification is appended to an endpoint's queue.
  - Collecting drains an endpoint's queue.
  - A two-phase sweep evicts endpoints that are too old or idle too long.
  - A diagnostic listing returns one metadata record per endpoint.
- **The URL path joiner** (`path_join`) and the public URI of an endpoint built with it
  (`generate_public_uri`). The joiner strips each fragment, skips blank ones, and applies
  a slash rule at every boundary between two kept fragments.

Modules:

- `Wrappers` holds `Option` and `Result`.
- `Schema` holds the captured-notification record, kept opaque.
- `EndpointStore` holds the registry operations.
  - Creating, updating, adding and collecting are pure functions from the old store to a
    `Reply`: the new store plus either the operation's value or the HTTP status it fails
    with (404, 500 or 507). Every failure returns the store unchanged.
  - Deleting is a pure function returning the new store and whether the id was registered.
  - The metadata listing is a method, since it walks the map in an unspecified order.
  - The sweep is a method with the two loops of `cleanup_expired_endpoints`. It is
    proved equal to `Sweep`, a one-line map comprehension of the eviction rule.
- `StoreProperties` holds properties over several operations:
  - bounds and timestamp order over any command sequence;
  - FIFO delivery and idempotent deletion;
  - the unit tests' scenarios.
- `PathJoin` holds the joiner, written as the loop of `path_join`: one `Emit` and one `After`
  per fragment.
- `PathJoinProperties` holds what the joiner promises. Its centrepiece proves `Join`
  equal to `SlashJoin`, an independent reference that puts exactly one "/" between
  fragment cores. This holds whenever no kept fragment is a bare "/" or "//".

Clock readings and the id a new endpoint receives are parameters. Timestamps and
durations are integers; `now - createdAt > maxDuration` is Python's `timedelta`
comparison.

## Model

| member | source | states |
|---|---|---|
| EndpointStore.NewStore | src/cactus_client_notifications/server/endpoint_store.py:76-80 | a new registry is empty and, with non-negative bounds, within both bounds |
| EndpointStore.CreateEndpoint | src/cactus_client_notifications/server/endpoint_store.py:82-102 | at or above capacity: 507 and the store unchanged; an id already registered: 500 and the store unchanged; success exactly when below capacity with a fresh id, then the keys grow by that id only, the new entry is the record of lines 51-55 with one clock reading for both times (see Findings): empty queue, enabled, created and last touched at `now`, all others are untouched, and, from a store within bounds with a non-negative queue cap, the bounds are kept |
| EndpointStore.UpdateEndpoint | src/cactus_client_notifications/server/endpoint_store.py:104-115 | unknown id: 404, store unchanged; otherwise sets `enabled`, sets the last interaction to `now`, keeps the queue and creation time, touches no other endpoint |
| EndpointStore.TryDeleteEndpoint | src/cactus_client_notifications/server/endpoint_store.py:117-125 | answers true exactly when the id was registered; removes that id and nothing else; when absent the store is unchanged |
| EndpointStore.AddNotification | src/cactus_client_notifications/server/endpoint_store.py:127-153 | checks in order: unknown 404, disabled 500, queue length at or above the limit 507, each leaving the store unchanged; succeeds exactly when all pass, then appends at the tail, sets the last interaction, keeps the queue within the limit and touches no other endpoint |
| EndpointStore.CollectNotifications | src/cactus_client_notifications/server/endpoint_store.py:155-171 | unknown id: 404, store unchanged; otherwise returns the whole queue oldest first, leaves it empty, sets the last interaction, keeps `enabled` and the creation time |
| EndpointStore.Sweep | src/cactus_client_notifications/server/endpoint_store.py:173-194 | the eviction rule as a reference: keeps exactly the endpoints whose age is at most the maximum duration and whose idle time is at most the maximum idle time, with their state unchanged, within bounds |
| EndpointStore.Expired | src/cactus_client_notifications/server/endpoint_store.py:178-190 | the eviction test: age strictly above the maximum duration, or idle time strictly above the maximum idle time; `Sweep`, `CleanupExpiredEndpoints` and `SweepKeepsExactlyTheUnexpired` state which endpoints it removes |
| EndpointStore.CleanupExpiredEndpoints | src/cactus_client_notifications/server/endpoint_store.py:173-194 | the two-phase sweep (scan and list, checking age before idle time, then delete each listed id) keeps exactly the unexpired endpoints, unchanged, and equals `Sweep` |
| EndpointStore.ListKeys | src/cactus_client_notifications/server/endpoint_store.py:206 | the scan over the registry visits every key exactly once |
| EndpointStore.GetEndpointMetadata | src/cactus_client_notifications/server/endpoint_store.py:196-207 | one record per registered endpoint: as many records as endpoints, distinct ids, every endpoint covered; each record carries its endpoint's queue length as the notification total, its flag and its two times, as the record of lines 58-66 lays out |
| StoreProperties.Step | src/cactus_client_notifications/server/endpoint_store.py:82-194 | whatever a command answers, it keeps the configured limits and, from a store within bounds with a non-negative queue cap, stays within bounds |
| StoreProperties.RunStaysWithinBounds | src/cactus_client_notifications/server/endpoint_store.py:86-92 | any sequence of operations started within bounds with a non-negative queue cap ends within bounds: no more endpoints than allowed, no queue longer than allowed |
| StoreProperties.StepKeepsTimesOrdered | src/cactus_client_notifications/server/endpoint_store.py:104-171 | one command issued with a clock that has not gone back keeps every endpoint's creation no later than its last interaction, and both no later than the clock |
| StoreProperties.RunKeepsTimesOrdered | src/cactus_client_notifications/server/endpoint_store.py:104-171 | the same timestamp order holds after any sequence of commands whose clock readings never go back |
| StoreProperties.AddAllAppends | src/cactus_client_notifications/server/endpoint_store.py:148-149 | notifications added one by one to an enabled endpoint with room land at the tail in arrival order, and nothing else changes |
| StoreProperties.CollectReturnsArrivalOrder | tests/unit/server/test_endpoint_store.py:83-86 | after arrivals, collecting returns the earlier queue followed by the arrivals in order, and an immediate second collect returns nothing |
| StoreProperties.UpdateIsIdempotent | src/cactus_client_notifications/server/endpoint_store.py:104-115 | repeating an update with the same flag gives the same store and outcome as issuing only the later one |
| StoreProperties.GrantedIdsAreDistinct | src/cactus_client_notifications/server/endpoint_store.py:94-102 | over a run of creations every granted id was unregistered before, is registered after, and no id is granted twice; existing endpoints stay registered |
| StoreProperties.DeleteIsIdempotent | tests/unit/server/test_endpoint_store.py:98-99 | the first delete reports whether the id existed; a second reports false and changes nothing |
| StoreProperties.SweepKeepsExactlyTheUnexpired | tests/unit/server/test_endpoint_store.py:139-151 | an endpoint survives a sweep exactly when neither limit is strictly exceeded; with non-negative limits, one created after the sweep's `now` and last touched no earlier than its creation survives unchanged |
| StoreProperties.EmptyStoreKnowsNoEndpoint | tests/unit/server/test_endpoint_store.py:31-46 | on an empty store collect, add and update fail with 404, delete reports false, and nothing (a sweep included) changes the store |
| StoreProperties.FullStoreRefusesUntilDelete | src/cactus_client_notifications/server/endpoint_store.py:86-102 | a full store refuses every creation with 507 and stays as it was; deleting one endpoint lets the refused creation succeed |
| StoreProperties.FillFour | tests/unit/server/test_endpoint_store.py:51-57 | in a store with room for four endpoints and three notifications each, four creations with distinct ids succeed, fill the store, and leave the first a fresh enabled endpoint with an empty queue |
| StoreProperties.CapacityScenario | tests/unit/server/test_endpoint_store.py:51-60 | with room for four endpoints, after the four creations a fifth fails with 507 and leaves the store as it was |
| StoreProperties.QueueBoundScenario | tests/unit/server/test_endpoint_store.py:67-84 | with room for three notifications, three adds to a fresh endpoint succeed, a fourth fails with 507 and changes nothing, collecting returns the three in arrival order, and collecting again returns nothing |
| StoreProperties.DeleteScenario | tests/unit/server/test_endpoint_store.py:96-109 | after one more add to the first endpoint, deleting it answers true and again false, deleting the second answers true, and adding to either then fails with 404 |
| StoreProperties.DisabledScenario | tests/unit/server/test_endpoint_store.py:164-176 | a notification sent while the first endpoint is disabled is refused with 500 and never delivered; those before and after are delivered in order, and the second endpoint receives its own notification meanwhile |
| StoreProperties.ExpiryScenario | tests/unit/server/test_endpoint_store.py:114-151 | with a 60 s idle limit and a 180 s lifetime: the too-old and the too-idle endpoints are evicted, the recent one and the one created in the future survive |
| StoreProperties.AsWrittenCreationCanPrecedeItself | src/cactus_client_notifications/server/endpoint_store.py:54-55 | with readings one tick apart, the record starts out touched before it was created |
| StoreProperties.SingleReadingCreationIsOrdered | src/cactus_client_notifications/server/endpoint_store.py:101 | creation from one clock reading keeps the order of creation, last interaction and clock |
| PathJoin.Strip | src/cactus_client_notifications/server/handler.py:31 | the stripped fragment has no whitespace at either end and is the fragment itself when it had none; `StripCutsOnlyEdgeWhitespace` adds that nothing but edge whitespace is cut |
| PathJoin.StripIsEmptyIffBlank | src/cactus_client_notifications/server/handler.py:31-33 | a fragment strips to "" exactly when it is all whitespace, which is when the loop skips it |
| PathJoin.Join | src/cactus_client_notifications/server/handler.py:26-56 | the joining loop over the stripped parts; `JoinMatchesSlashJoin` proves it puts exactly one "/" at every boundary when no kept part is a bare "/" or "//", `FirstKeptComesFirst` and `BlankFragmentIsIgnored` hold for all parts, the bare-slash lemmas cover a bare "/", and `DoubleSlashIsKept` a "//" fragment |
| PathJoin.PublicUri | src/cactus_client_notifications/server/handler.py:59-63 | the public URI is the join of the public URL, the mount point and "/webhook/" with the id; `PublicUriWithoutMountPath` and `PublicUriWithMountPath` give its exact spelling |
| PathJoinProperties.StripIsIdempotent | src/cactus_client_notifications/server/handler.py:31 | stripping twice is stripping once |
| PathJoin.StripCutsOnlyEdgeWhitespace | src/cactus_client_notifications/server/handler.py:31 | stripping cuts only whitespace, and only at the two ends: the result is a slice of the fragment with nothing but whitespace before and after it |
| PathJoinProperties.Kept | src/cactus_client_notifications/server/handler.py:30-33 | no more kept fragments than parts, and none of them empty |
| PathJoinProperties.BoundaryPutsOneSlash | src/cactus_client_notifications/server/handler.py:41-53 | the previous fragment's trailing slash plus what the boundary rule emits is exactly one "/" followed by the next fragment without its leading slash |
| PathJoinProperties.JoinAfterMatchesSegments | src/cactus_client_notifications/server/handler.py:29-55 | after a kept fragment, the loop emits one "/" before the core of each following fragment and keeps the last one's trailing slash |
| PathJoinProperties.JoinAfterNoneMatchesSlashJoin | src/cactus_client_notifications/server/handler.py:29-56 | from the start, the loop over stripped fragments equals the one-slash reference join |
| PathJoinProperties.JoinMatchesSlashJoin | src/cactus_client_notifications/server/handler.py:26-56 | when no kept fragment is a bare "/" or "//", joining equals the reference: exactly one "/" at every boundary, the first leading and the last trailing slash kept, blanks ignored |
| PathJoinProperties.JoinAfterSkipsBlank | src/cactus_client_notifications/server/handler.py:32-33 | an empty fragment anywhere leaves the loop's output unchanged |
| PathJoinProperties.BlankFragmentIsIgnored | src/cactus_client_notifications/server/handler.py:31-33 | a fragment made only of whitespace, wherever it stands, does not change the join |
| PathJoinProperties.JoinAfterStartsWithFirstKept | src/cactus_client_notifications/server/handler.py:35-38 | the loop's output starts with the first non-empty fragment |
| PathJoinProperties.JoinAfterOfBlanks | src/cactus_client_notifications/server/handler.py:30-33 | over empty fragments only, the loop emits nothing |
| PathJoinProperties.FirstKeptComesFirst | src/cactus_client_notifications/server/handler.py:35-38 | the first non-blank fragment, stripped, is a prefix of the join, and the join is "" exactly when every fragment is blank |
| PathJoinProperties.TwoFragments | src/cactus_client_notifications/server/handler.py:41-53 | slash on both sides keeps one, slash on neither side inserts one, slash on one side concatenates unchanged |
| PathJoinProperties.BareSlashIsSkipped | src/cactus_client_notifications/server/handler.py:41-44 | after a kept fragment ending in a slash, a bare "/" emits nothing and does not become the last fragment |
| PathJoinProperties.BareSlashAfterSlashIsDropped | src/cactus_client_notifications/server/handler.py:41-44 | a bare "/" right after a first fragment ending in a slash does not change the join |
| PathJoinProperties.BareSlashAfterPlainFragment | src/cactus_client_notifications/server/handler.py:48-54 | after a kept fragment without a trailing slash, a bare "/" is emitted as is and becomes the last fragment |
| PathJoinProperties.DoubleSlashIsKept | src/cactus_client_notifications/server/handler.py:41-54 | a "//" fragment is always kept and becomes the last fragment: after a slash it emits "/", otherwise "//", so a double slash survives at that boundary |
| PathJoinProperties.SlashRunAfterPlainFragment | src/cactus_client_notifications/server/handler.py:30-54 | after a fragment without a trailing slash, the run "/", "/", "", "/" emits one "/" and leaves "/" as the last fragment |
| PathJoinProperties.JoinSlashRunBetween | src/cactus_client_notifications/server/handler.py:26-56 | between two plain fragments, the run "/", "/", "", "/" joins them with exactly one slash |
| PathJoinProperties.JoinSlashRunAround | src/cactus_client_notifications/server/handler.py:26-56 | the same with two bare slashes after the second fragment: the join ends in exactly one slash |
| PathJoinProperties.EndpointPathIsKept | src/cactus_client_notifications/schema/__init__.py:34 | the endpoint path of a URL-safe id has no surrounding whitespace, starts but does not end with a slash, and is "/webhook/" followed by the id |
| PathJoinProperties.PublicUriWithoutMountPath | src/cactus_client_notifications/server/handler.py:59-63 | with a blank or "/" mount point the public URI is the URL, one "/" if it lacks one, then "webhook/" and the id |
| PathJoinProperties.PublicUriWithMountPath | src/cactus_client_notifications/server/handler.py:59-63 | with a real mount point the public URI is the URL without its trailing slash, "/", the mount point's core, then the endpoint path |
| PathJoinProperties.JoinExamplesShort | tests/unit/server/test_handler.py:11-12 | no parts join to ""; one part joins to itself |
| PathJoinProperties.JoinExampleBareSlashesBetween | tests/unit/server/test_handler.py:13 | "abc", "/", "/", "", "/", "def" join to "abc/def" |
| PathJoinProperties.JoinExampleBareSlashesAround | tests/unit/server/test_handler.py:14 | "abc", "/", "/", "", "/", "def", "/", "/" join to "abc/def/" |
| PathJoinProperties.JoinExampleNoSlash | tests/unit/server/test_handler.py:15 | "abc" and "def" join to "abc/def" |
| PathJoinProperties.JoinExampleSlashBefore | tests/unit/server/test_handler.py:17 | "abc/" and "def" join to "abc/def" |
| PathJoinProperties.JoinExampleSlashAfter | tests/unit/server/test_handler.py:18 | "abc" and "/def" join to "abc/def" |
| PathJoinProperties.JoinExampleSlashBoth | tests/unit/server/test_handler.py:19 | "abc/" and "/def" join to "abc/def" |
| PathJoinProperties.JoinExampleOuterSlashes | tests/unit/server/test_handler.py:20 | "/abc/" and "/def/" join to "/abc/def/" |
| PathJoinProperties.JoinExamplePaddedParts | tests/unit/server/test_handler.py:21 | " /abc/ ", " /def/ ", "   ", " / " join to "/abc/def/" |
| PathJoinProperties.JoinExampleUrlParts | tests/unit/server/test_handler.py:22 | "https://foo.com:123/", "/", "/def/", "", "efg", "hij/" join to "https://foo.com:123/def/efg/hij/" |
| PathJoinProperties.PublicUriExampleBareMount | tests/unit/server/test_handler.py:34 | URL "https://foo.bar:123/", mount "/", id "abc123" give "https://foo.bar:123/webhook/abc123" |
| PathJoinProperties.PublicUriExampleNamedMount | tests/unit/server/test_handler.py:35 | URL "http://foo.bar.baz:456", mount "api", id "DEF456" give "http://foo.bar.baz:456/api/webhook/DEF456" |

## Left out

- The lock around every registry method. Each operation is one atomic step here, which
  is what the lock guarantees. Concurrency is not modelled.
- The periodic sweep task and the rest of `main.py`: the sleep loop, cancellation,
  exception suppression, environment parsing and route registration. This is process
  plumbing; the sweep it calls is modelled.
- The HTTP handlers in `handler.py`. They are request/response glue and JSON parsing;
  their status mapping is the `Status` code each operation returns.
- The random id generator and the clock. The new id and `now` are parameters; endpoint
  ids are assumed URL-safe (`IsToken`) where the public URI is derived.
- Building a captured notification from an incoming request, the JSON schema, settings
  and logging. A notification is an opaque record.
- Distinct error kinds. The code carries only an HTTP status: a disabled endpoint and an
  id collision both give 500; a full queue and a full registry both give 507.
- Id uniqueness for the whole process lifetime. The code checks a new id only against
  the ids registered now, so a deleted endpoint's id could be issued again; the model
  follows the code (`CreateEndpoint` rejects only a live id).
- The queue-full test is `>=`, as in the code, so a queue already longer than the limit
  is refused too.
- EndpointStore.GetEndpointMetadata: the order of the records is the dictionary's
  iteration order, which the model leaves unspecified; every record and every endpoint
  are still accounted for.
- EndpointStore.CleanupExpiredEndpoints: its scan visits the endpoints in an unspecified
  order, as the dictionary's iteration order is not part of the model. Order does not
  affect which endpoints are evicted.
- `str.strip` is modelled with the whitespace set of Python's `str.isspace`, spelled
  out character by character in `IsWhitespace`; no Unicode database is consulted.
- PathJoinProperties.JoinMatchesSlashJoin: fragments that are a bare "/" or "//" after
  stripping are excluded. For them the loop's output depends on the neighbouring
  fragments; `BareSlashIsSkipped` and `BareSlashAfterSlashIsDropped` cover a bare "/"
  after a slash, `BareSlashAfterPlainFragment` one after a fragment without a trailing
  slash, `JoinSlashRunBetween` and `JoinSlashRunAround` the runs of the example table, and
  `DoubleSlashIsKept` a "//" fragment, which is always kept and so leaves a double slash
  at its boundary.

## Findings

| source | as written | input that shows it | evidently intended | confidence | as-written member | corrected member |
|---|---|---|---|---|---|---|
| src/cactus_client_notifications/server/endpoint_store.py:54-55 | a new endpoint reads the clock twice: first for its last interaction, then for its creation | two readings one tick apart: last interaction 0, creation 1 | one reading for both, so that the last interaction is never before creation | low (the gap is one clock tick); not executed | StoreProperties.AsWrittenCreationCanPrecedeItself | StoreProperties.SingleReadingCreationIsOrdered |

=== FILE: endpoint_store.dfy ===
/**
  The endpoint registry: a map from endpoint id to the endpoint's state, bounded in the
  number of endpoints and in the length of each endpoint's notification queue.

  `EndpointStore` in endpoint_store.py guards every operation with one lock, so each operation is one atomic step;
  here each is a pure function from the old store to the new store and a result. The id a
  new endpoint receives and the clock reading `now` are parameters: the random id
  generator and the clock are outside the model.
*/
module EndpointStore {
  import opened Wrappers
  import opened Schema

  type EndpointId = string

  /**
    The HTTP status a failed operation asks its caller to serve: 404 Not Found, 500 Internal
    Server Error, 507 Insufficient Storage.
  */
  datatype Status = NotFound | InternalServerError | InsufficientStorage

  /** State kept for one endpoint. `notifications` is a FIFO queue: oldest first. */
  datatype EndpointData = EndpointData(
    notifications: seq<CollectedNotification>,
    enabled: bool,
    createdAt: Time,
    interactedAt: Time)

  /** Read-only projection of one endpoint, for diagnostics. */
  datatype EndpointMetadata = EndpointMetadata(
    endpointId: EndpointId,
    totalNotifications: nat,
    enabled: bool,
    createdAt: Time,
    interactedAt: Time)

  /** The registry with its two configured bounds. */
  datatype Store = Store(
    maxActiveEndpoints: int,
    maxEndpointNotifications: int,
    endpoints: map<EndpointId, EndpointData>)

  /** The store after an operation, and what the operation returned or which status it failed with. */
  datatype Reply<+T> = Reply(store: Store, result: Result<T, Status>)

  /** Every endpoint other than `id` is still present with exactly the same state. */
  ghost predicate OthersUnchanged(before: map<EndpointId, EndpointData>, after: map<EndpointId, EndpointData>, id: EndpointId)
  {
    forall k :: k in before && k != id ==> k in after && after[k] == before[k]
  }

  /** Both configured bounds are respected. */
  ghost predicate WithinBounds(s: Store)
  {
    && |s.endpoints| <= s.maxActiveEndpoints
    && forall id :: id in s.endpoints ==> |s.endpoints[id].notifications| <= s.maxEndpointNotifications
  }

  /** The limits are configuration: no operation changes them. */
  ghost predicate SameLimits(s: Store, t: Store)
  {
    s.maxActiveEndpoints == t.maxActiveEndpoints && s.maxEndpointNotifications == t.maxEndpointNotifications
  }

  /** An empty registry with the given bounds. */
  function NewStore(maxActiveEndpoints: int, maxEndpointNotifications: int): (s: Store)
    ensures |s.endpoints| == 0
    ensures 0 <= maxActiveEndpoints && 0 <= maxEndpointNotifications ==> WithinBounds(s)
  {
    Store(maxActiveEndpoints, maxEndpointNotifications, map[])
  }

  /** A freshly created endpoint: enabled, nothing queued, created and touched at `now`. */
  function NewEndpointData(now: Time): (e: EndpointData)
    ensures e.enabled && |e.notifications| == 0
    ensures e.createdAt == now && e.interactedAt == now
  {
    EndpointData([], true, now, now)
  }

  /**
    Registers `newId` (the generator's output) as a new endpoint. Fails with 507 when the
    store is already at capacity, and with 500 when the id is already registered; either
    failure leaves the store as it was.
  */
  function CreateEndpoint(s: Store, newId: EndpointId, now: Time): (r: Reply<EndpointId>)
    ensures |s.endpoints| >= s.maxActiveEndpoints ==> r == Reply(s, Err(InsufficientStorage))
    ensures |s.endpoints| < s.maxActiveEndpoints && newId in s.endpoints ==> r == Reply(s, Err(InternalServerError))
    ensures r.result.Ok? <==> |s.endpoints| < s.maxActiveEndpoints && newId !in s.endpoints
    ensures SameLimits(s, r.store)
    ensures r.result.Ok? ==>
      && r.result.value == newId
      && r.store.endpoints.Keys == s.endpoints.Keys + {newId}
      && |r.store.endpoints| == |s.endpoints| + 1
      && r.store.endpoints[newId] == EndpointData([], true, now, now)
      && OthersUnchanged(s.endpoints, r.store.endpoints, newId)
    ensures |r.store.endpoints| <= |s.endpoints| || |r.store.endpoints| <= s.maxActiveEndpoints
    ensures WithinBounds(s) && 0 <= s.maxEndpointNotifications ==> WithinBounds(r.store)
  {
    if |s.endpoints| >= s.maxActiveEndpoints then
      Reply(s, Err(InsufficientStorage))
    else if newId in s.endpoints then
      Reply(s, Err(InternalServerError))
    else
      Reply(s.(endpoints := s.endpoints[newId := NewEndpointData(now)]), Ok(newId))
  }

  /**
    Sets whether `id` accepts notifications and marks it as touched at `now`. Fails with 404
    when `id` is not registered. The queue and the creation time are kept.
  */
  function UpdateEndpoint(s: Store, id: EndpointId, enabled: bool, now: Time): (r: Reply<()>)
    ensures id !in s.endpoints ==> r == Reply(s, Err(NotFound))
    ensures id in s.endpoints ==>
      && r.result.Ok?
      && r.store.endpoints.Keys == s.endpoints.Keys
      && r.store.endpoints[id].enabled == enabled
      && r.store.endpoints[id].interactedAt == now
      && r.store.endpoints[id].notifications == s.endpoints[id].notifications
      && r.store.endpoints[id].createdAt == s.endpoints[id].createdAt
      && OthersUnchanged(s.endpoints, r.store.endpoints, id)
    ensures SameLimits(s, r.store)
    ensures WithinBounds(s) ==> WithinBounds(r.store)
  {
    if id !in s.endpoints then
      Reply(s, Err(NotFound))
    else
      var data := s.endpoints[id];
      Reply(s.(endpoints := s.endpoints[id := data.(enabled := enabled, interactedAt := now)]), Ok(()))
  }

  /** Removes `id` if it is registered, answering whether it was. Never fails. */
  function TryDeleteEndpoint(s: Store, id: EndpointId): (r: (Store, bool))
    ensures r.1 <==> id in s.endpoints
    ensures r.0.endpoints.Keys == s.endpoints.Keys - {id}
    ensures OthersUnchanged(s.endpoints, r.0.endpoints, id)
    ensures !r.1 ==> r.0 == s
    ensures SameLimits(s, r.0)
    ensures WithinBounds(s) ==> WithinBounds(r.0)
  {
    var present := id in s.endpoints;
    if present then (s.(endpoints := s.endpoints - {id}), present) else (s, present)
  }

  /**
    Appends `n` to the queue of `id`. The checks run in a fixed order: 404 when `id` is not
    registered, then 500 when it is disabled, then 507 when its queue is already full. Any
    failure leaves the store untouched; success appends at the tail and marks it touched.
  */
  function AddNotification(s: Store, id: EndpointId, n: CollectedNotification, now: Time): (r: Reply<()>)
    ensures id !in s.endpoints ==> r == Reply(s, Err(NotFound))
    ensures id in s.endpoints && !s.endpoints[id].enabled ==> r == Reply(s, Err(InternalServerError))
    ensures id in s.endpoints && s.endpoints[id].enabled && |s.endpoints[id].notifications| >= s.maxEndpointNotifications ==>
              r == Reply(s, Err(InsufficientStorage))
    ensures r.result.Ok? <==>
      id in s.endpoints && s.endpoints[id].enabled && |s.endpoints[id].notifications| < s.maxEndpointNotifications
    ensures r.result.Ok? ==>
      && r.store.endpoints.Keys == s.endpoints.Keys
      && r.store.endpoints[id].notifications == s.endpoints[id].notifications + [n]
      && |r.store.endpoints[id].notifications| <= s.maxEndpointNotifications
      && r.store.endpoints[id].interactedAt == now
      && r.store.endpoints[id].enabled
      && r.store.endpoints[id].createdAt == s.endpoints[id].createdAt
      && OthersUnchanged(s.endpoints, r.store.endpoints, id)
    ensures SameLimits(s, r.store)
    ensures WithinBounds(s) ==> WithinBounds(r.store)
  {
    if id !in s.endpoints then
      Reply(s, Err(NotFound))
    else
      var data := s.endpoints[id];
      if !data.enabled then
        Reply(s, Err(InternalServerError))
      else if |data.notifications| >= s.maxEndpointNotifications then
        Reply(s, Err(InsufficientStorage))
      else
        var data' := data.(interactedAt := now, notifications := data.notifications + [n]);
        Reply(s.(endpoints := s.endpoints[id := data']), Ok(()))
  }

  /**
    Drains the queue of `id`: returns everything queued, oldest first, leaves the queue
    empty and marks the endpoint touched. Fails with 404 when `id` is not registered.
  */
  function CollectNotifications(s: Store, id: EndpointId, now: Time): (r: Reply<seq<CollectedNotification>>)
    ensures id !in s.endpoints ==> r == Reply(s, Err(NotFound))
    ensures id in s.endpoints ==>
      && r.result == Ok(s.endpoints[id].notifications)
      && r.store.endpoints.Keys == s.endpoints.Keys
      && r.store.endpoints[id].notifications == []
      && r.store.endpoints[id].interactedAt == now
      && r.store.endpoints[id].enabled == s.endpoints[id].enabled
      && r.store.endpoints[id].createdAt == s.endpoints[id].createdAt
      && OthersUnchanged(s.endpoints, r.store.endpoints, id)
    ensures SameLimits(s, r.store)
    ensures WithinBounds(s) ==> WithinBounds(r.store)
  {
    if id !in s.endpoints then
      Reply(s, Err(NotFound))
    else
      var data := s.endpoints[id];
      var collected := data.notifications;
      Reply(s.(endpoints := s.endpoints[id := data.(interactedAt := now, notifications := [])]), Ok(collected))
  }

  /**
    The eviction rule: an endpoint has expired at `now` when its age strictly exceeds
    `maxDuration` or its idle time strictly exceeds `maxIdle`.
  */
  predicate Expired(e: EndpointData, now: Time, maxIdle: int, maxDuration: int)
  {
    now - e.createdAt > maxDuration || now - e.interactedAt > maxIdle
  }

  /** The store after evicting every expired endpoint, as one map comprehension. */
  function Sweep(s: Store, now: Time, maxIdle: int, maxDuration: int): (r: Store)
    ensures SameLimits(s, r)
    ensures forall id :: id in r.endpoints <==> id in s.endpoints && !Expired(s.endpoints[id], now, maxIdle, maxDuration)
    ensures forall id :: id in r.endpoints ==> r.endpoints[id] == s.endpoints[id]
    ensures WithinBounds(s) ==> WithinBounds(r)
  {
    var r := s.(endpoints := map id | id in s.endpoints && !Expired(s.endpoints[id], now, maxIdle, maxDuration) :: s.endpoints[id]);
    assert r.endpoints.Keys <= s.endpoints.Keys;
    SubsetCardinality(r.endpoints.Keys, s.endpoints.Keys);
    r
  }

  lemma SubsetCardinality<T>(a: set<T>, b: set<T>)
    requires a <= b
    ensures |a| <= |b|
  {
    assert b == a + (b - a);
  }

  /**
    The expiry sweep as `cleanup_expired_endpoints` performs it, in two phases: first scan every endpoint
    and list the expired ones (age is checked before idle time), then delete each listed id.
    A listed id is always still present when its turn to be deleted comes.
  */
  method CleanupExpiredEndpoints(s: Store, now: Time, maxIdle: int, maxDuration: int) returns (r: Store)
    ensures SameLimits(s, r)
    ensures forall id :: id in r.endpoints <==> id in s.endpoints && !Expired(s.endpoints[id], now, maxIdle, maxDuration)
    ensures forall id :: id in r.endpoints ==> r.endpoints[id] == s.endpoints[id]
    ensures r == Sweep(s, now, maxIdle, maxDuration)
  {
    // Phase 1: decide, against one `now`, which endpoints have expired.
    var expired: seq<EndpointId> := [];
    var pending := s.endpoints.Keys;
    while pending != {}
      invariant pending <= s.endpoints.Keys
      invariant forall id :: id in s.endpoints && id !in pending ==>
                  (id in expired <==> Expired(s.endpoints[id], now, maxIdle, maxDuration))
      invariant forall i :: 0 <= i < |expired| ==> expired[i] in s.endpoints && expired[i] !in pending
      invariant forall i, j :: 0 <= i < j < |expired| ==> expired[i] != expired[j]
      decreases pending
    {
      var id :| id in pending;
      var data := s.endpoints[id];
      pending := pending - {id};
      if now - data.createdAt > maxDuration {
        expired := expired + [id];
        continue;
      }
      if now - data.interactedAt > maxIdle {
        expired := expired + [id];
        continue;
      }
    }

    // Phase 2: delete every listed endpoint.
    var endpoints := s.endpoints;
    var i := 0;
    while i < |expired|
      invariant 0 <= i <= |expired|
      invariant forall id :: id in endpoints <==> id in s.endpoints && id !in expired[..i]
      invariant forall id :: id in endpoints ==> endpoints[id] == s.endpoints[id]
    {
      var id := expired[i];
      assert id !in expired[..i];
      assert id in endpoints;
      endpoints := endpoints - {id};
      assert expired[..i + 1] == expired[..i] + [id];
      i := i + 1;
    }
    assert expired[..i] == expired;
    r := s.(endpoints := endpoints);
  }

  /** The diagnostic projection of one endpoint. */
  function Metadata(id: EndpointId, e: EndpointData): (m: EndpointMetadata)
    ensures m.endpointId == id && m.totalNotifications == |e.notifications|
    ensures m.enabled == e.enabled && m.createdAt == e.createdAt && m.interactedAt == e.interactedAt
  {
    EndpointMetadata(id, |e.notifications|, e.enabled, e.createdAt, e.interactedAt)
  }

  /** The elements of a sequence of ids, as a set. */
  ghost function Elements(ids: seq<EndpointId>): set<EndpointId>
  {
    set i | 0 <= i < |ids| :: ids[i]
  }

  lemma ElementsAppend(ids: seq<EndpointId>, id: EndpointId)
    ensures Elements(ids + [id]) == Elements(ids) + {id}
  {
    var ids' := ids + [id];
    assert ids'[|ids|] == id;
    forall x | x in Elements(ids) + {id}
      ensures x in Elements(ids')
    {
      if x == id {
        assert ids'[|ids|] == x;
      } else {
        var i :| 0 <= i < |ids| && ids[i] == x;
        assert ids'[i] == x;
      }
    }
  }

  /** Lists the keys of `m`, each exactly once, in the (unspecified) order a scan visits them. */
  method ListKeys(m: map<EndpointId, EndpointData>) returns (ids: seq<EndpointId>)
    ensures |ids| == |m|
    ensures forall i :: 0 <= i < |ids| ==> ids[i] in m
    ensures forall i, j :: 0 <= i < j < |ids| ==> ids[i] != ids[j]
    ensures forall id :: id in m ==> exists i :: 0 <= i < |ids| && ids[i] == id
  {
    ids := [];
    var pending := m.Keys;
    while pending != {}
      invariant pending <= m.Keys
      invariant |ids| + |pending| == |m|
      invariant forall i :: 0 <= i < |ids| ==> ids[i] in m && ids[i] !in pending
      invariant forall i, j :: 0 <= i < j < |ids| ==> ids[i] != ids[j]
      invariant m.Keys - pending <= Elements(ids)
      decreases pending
    {
      var id :| id in pending;
      ElementsAppend(ids, id);
      ids := ids + [id];
      pending := pending - {id};
    }
    forall id | id in m
      ensures exists i :: 0 <= i < |ids| && ids[i] == id
    {
      assert id in Elements(ids);
    }
  }

  /**
    One metadata record per registered endpoint, each naming a distinct endpoint and
    reporting its queue length as `totalNotifications`.
  */
  method GetEndpointMetadata(s: Store) returns (r: seq<EndpointMetadata>)
    ensures |r| == |s.endpoints|
    ensures forall i :: 0 <= i < |r| ==>
      && r[i].endpointId in s.endpoints
      && r[i].totalNotifications == |s.endpoints[r[i].endpointId].notifications|
      && r[i].enabled == s.endpoints[r[i].endpointId].enabled
      && r[i].createdAt == s.endpoints[r[i].endpointId].createdAt
      && r[i].interactedAt == s.endpoints[r[i].endpointId].interactedAt
    ensures forall i, j :: 0 <= i < j < |r| ==> r[i].endpointId != r[j].endpointId
    ensures forall id :: id in s.endpoints ==> exists i :: 0 <= i < |r| && r[i].endpointId == id
  {
    var ids := ListKeys(s.endpoints);
    r := seq(|ids|, i requires 0 <= i < |ids| => Metadata(ids[i], s.endpoints[ids[i]]));
    assert forall i :: 0 <= i < |r| ==> r[i].endpointId == ids[i];
    forall id | id in s.endpoints
      ensures exists i :: 0 <= i < |r| && r[i].endpointId == id
    {
      var i :| 0 <= i < |ids| && ids[i] == id;
      assert r[i].endpointId == id;
    }
  }
}

=== FILE: path_join.dfy ===
/**
  Joining URL path fragments: surrounding whitespace is stripped from each fragment, blank
  fragments are skipped, and each boundary between two kept fragments ends up with the
  slash pattern the boundary rules below pick. The public URI of a webhook endpoint is
  built from the server's public URL, its mount point and the endpoint's path.
*/
module PathJoin {
  import opened Wrappers

  /**
    The characters Python's argument-less `str.strip` removes: those `str.isspace` accepts
    (ASCII space, tab, line feed, vertical tab, form feed, carriage return, the four
    information separators, NEL, no-break space and the Unicode space separators).
  */
  predicate IsWhitespace(c: char)
  {
    || c == ' ' || c == '\t' || c == '\n' || c == '\r' || c == '\U{000B}' || c == '\U{000C}'
    || ('\U{001C}' <= c <= '\U{001F}')
    || c == '\U{0085}' || c == '\U{00A0}' || c == '\U{1680}'
    || ('\U{2000}' <= c <= '\U{200A}')
    || c == '\U{2028}' || c == '\U{2029}' || c == '\U{202F}' || c == '\U{205F}' || c == '\U{3000}'
  }

  /** Where `s` stops being whitespace when read forwards from `i`. */
  function SkipLeading(s: string, i: nat): (k: nat)
    requires i <= |s|
    ensures i <= k <= |s|
    ensures k < |s| ==> !IsWhitespace(s[k])
    ensures forall j :: i <= j < k ==> IsWhitespace(s[j])
    decreases |s| - i
  {
    if i < |s| && IsWhitespace(s[i]) then SkipLeading(s, i + 1) else i
  }

  /** Where `s` stops being whitespace when read backwards from `j`, not going below `lo`. */
  function SkipTrailing(s: string, lo: nat, j: nat): (k: nat)
    requires lo <= j <= |s|
    ensures lo <= k <= j
    ensures lo < k ==> !IsWhitespace(s[k - 1])
    ensures forall i :: k <= i < j ==> IsWhitespace(s[i])
    decreases j
  {
    if lo < j && IsWhitespace(s[j - 1]) then SkipTrailing(s, lo, j - 1) else j
  }

  /** Every character of `s` is whitespace. */
  predicate Blank(s: string)
  {
    forall i :: 0 <= i < |s| ==> IsWhitespace(s[i])
  }

  /** `r` is `s` with a whitespace-only prefix and a whitespace-only suffix cut off. */
  ghost predicate TrimmedFrom(s: string, r: string)
  {
    exists lo, hi :: 0 <= lo <= hi <= |s| && r == s[lo..hi] && Blank(s[..lo]) && Blank(s[hi..])
  }

  /**
    Python's `str.strip()`: the result neither starts nor ends with whitespace, and is `s`
    itself when `s` has no whitespace at either end. `StripCutsOnlyEdgeWhitespace` adds
    that only whitespace at the two ends is cut. (`StripIsEmptyIffBlank` adds that it
    is empty exactly when `s` is all whitespace.)
  */
  function Strip(s: string): (r: string)
    ensures |r| <= |s|
    ensures r != [] ==> !IsWhitespace(r[0]) && !IsWhitespace(r[|r| - 1])
    ensures s != [] && !IsWhitespace(s[0]) && !IsWhitespace(s[|s| - 1]) ==> r == s
  {
    var lo := SkipLeading(s, 0);
    s[lo..SkipTrailing(s, lo, |s|)]
  }

  /**
    `Strip` cuts whitespace from the two ends and nothing else: what it returns is a slice
    of `s`, and everything before and after that slice is whitespace.
  */
  lemma StripCutsOnlyEdgeWhitespace(s: string)
    ensures TrimmedFrom(s, Strip(s))
  {
    var lo := SkipLeading(s, 0);
    var hi := SkipTrailing(s, lo, |s|);
    assert Blank(s[..lo]) && Blank(s[hi..]);
    assert Strip(s) == s[lo..hi];
  }

  lemma StripIsEmptyIffBlank(s: string)
    ensures Strip(s) == [] <==> Blank(s)
  {
    var lo := SkipLeading(s, 0);
    var hi := SkipTrailing(s, lo, |s|);
    assert lo < hi ==> !IsWhitespace(s[lo]);
  }

  predicate StartsWithSlash(s: string)
  {
    |s| > 0 && s[0] == '/'
  }

  predicate EndsWithSlash(s: string)
  {
    |s| > 0 && s[|s| - 1] == '/'
  }

  /**
    What is emitted for the kept fragment `next` when the previously kept fragment was
    `last`: with a slash on both sides one of them is dropped, with a slash on neither
    side one is inserted, and with a slash on exactly one side `next` is emitted as is.
  */
  function Boundary(last: string, next: string): string
  {
    if EndsWithSlash(last) then
      if StartsWithSlash(next) then next[1..] else next
    else
      if StartsWithSlash(next) then next else "/" + next
  }

  /** One loop iteration's decision: is `next` a bare "/" arriving right after a slash? */
  predicate DropsBareSlash(prev: string, next: string)
  {
    EndsWithSlash(prev) && StartsWithSlash(next) && |next| == 1
  }

  /** Every fragment stripped, as the loop strips each one before looking at it. */
  function StripAll(parts: seq<string>): (r: seq<string>)
    ensures |r| == |parts|
    ensures forall i :: 0 <= i < |r| ==> r[i] == Strip(parts[i])
  {
    seq(|parts|, i requires 0 <= i < |parts| => Strip(parts[i]))
  }

  /**
    What one iteration of the joining loop appends for the stripped fragment `next`, when
    `last` is the fragment the loop last kept (`None` before the first one): nothing for a
    blank fragment or a bare "/" after a slash, `next` itself when it is the first one
    kept, and otherwise what the boundary rule emits.
  */
  function Emit(last: Option<string>, next: string): string
  {
    if next == "" then ""
    else
      match last
      case None => next
      case Some(prev) => if DropsBareSlash(prev, next) then "" else Boundary(prev, next)
  }

  /** The fragment the loop remembers as `last` after its iteration for `next`. */
  function After(last: Option<string>, next: string): Option<string>
  {
    if next == "" then last
    else
      match last
      case None => Some(next)
      case Some(prev) => if DropsBareSlash(prev, next) then last else Some(next)
  }

  /** The output of the joining loop over the remaining stripped fragments, `last` being as in `Emit`. */
  function JoinAfter(last: Option<string>, frags: seq<string>): string
    decreases |frags|
  {
    if frags == [] then "" else Emit(last, frags[0]) + JoinAfter(After(last, frags[0]), frags[1..])
  }

  /** `path_join(*parts)` in handler.py. */
  function Join(parts: seq<string>): string
  {
    JoinAfter(None, StripAll(parts))
  }

  /** The path template of a webhook endpoint, filled in with `endpointId`. */
  function EndpointPath(endpointId: string): string
  {
    "/webhook/" + endpointId
  }

  /** `generate_public_uri` in handler.py: where the outside world reaches endpoint `endpointId`. */
  function PublicUri(publicServerUrl: string, mountPoint: string, endpointId: string): string
  {
    Join([publicServerUrl, mountPoint, EndpointPath(endpointId)])
  }
}

=== FILE: path_join_properties.dfy ===
/**
  What `Join` promises. The central fact: when no kept fragment is made of boundary
  slashes alone, joining equals an independent reference, `SlashJoin`, that puts exactly
  one "/" between the fragments' cores and keeps only the first fragment's leading slash
  and the last fragment's trailing slash.
*/
module PathJoinProperties {
  import opened Wrappers
  import opened PathJoin

  lemma StripIsIdempotent(s: string)
    ensures Strip(Strip(s)) == Strip(s)
  {
  }

  /** The non-empty fragments of `frags`, in order. */
  function NonBlank(frags: seq<string>): (ks: seq<string>)
    ensures |ks| <= |frags|
    ensures forall i :: 0 <= i < |ks| ==> ks[i] != ""
    decreases |frags|
  {
    if frags == [] then []
    else if frags[0] == "" then NonBlank(frags[1..])
    else [frags[0]] + NonBlank(frags[1..])
  }

  /** The fragments the joiner keeps: each fragment stripped, blank ones dropped, order kept. */
  function Kept(parts: seq<string>): (ks: seq<string>)
    ensures |ks| <= |parts|
    ensures forall i :: 0 <= i < |ks| ==> ks[i] != ""
  {
    NonBlank(StripAll(parts))
  }

  function DropLeadingSlash(p: string): string
  {
    if StartsWithSlash(p) then p[1..] else p
  }

  function DropTrailingSlash(p: string): string
  {
    if EndsWithSlash(p) then p[..|p| - 1] else p
  }

  function LeadingSlash(p: string): string
  {
    if StartsWithSlash(p) then "/" else ""
  }

  function TrailingSlash(p: string): string
  {
    if EndsWithSlash(p) then "/" else ""
  }

  /** A fragment without the one slash each of its ends may bring to a boundary. */
  function Core(p: string): string
  {
    DropTrailingSlash(DropLeadingSlash(p))
  }

  /** A fragment that is more than its boundary slashes ("/" and "//" are not). */
  predicate HasCore(p: string)
  {
    Core(p) != ""
  }

  /** Every fragment of `ks` has a core. */
  predicate AllHaveCore(ks: seq<string>)
  {
    forall i :: 0 <= i < |ks| ==> HasCore(ks[i])
  }

  /** Every kept fragment of `parts` has a core. */
  predicate Separable(parts: seq<string>)
  {
    AllHaveCore(Kept(parts))
  }

  /** The cores of `ps` with one "/" between neighbours, and the last one's trailing slash. */
  function Segments(ps: seq<string>): string
    requires ps != []
    decreases |ps|
  {
    Core(ps[0]) + (if |ps| == 1 then TrailingSlash(ps[0]) else "/" + Segments(ps[1..]))
  }

  /** The reference join: exactly one "/" at every boundary, outer slashes kept. */
  function SlashJoin(ps: seq<string>): string
  {
    if ps == [] then "" else LeadingSlash(ps[0]) + Segments(ps)
  }

  /** A fragment with a core is its leading slash, its core and its trailing slash. */
  lemma Decompose(p: string)
    requires HasCore(p)
    ensures p == LeadingSlash(p) + Core(p) + TrailingSlash(p)
    ensures DropTrailingSlash(p) == LeadingSlash(p) + Core(p)
  {
    var q := DropLeadingSlash(p);
    assert q != [];
    assert EndsWithSlash(q) <==> EndsWithSlash(p);
    if EndsWithSlash(q) {
      assert q == q[..|q| - 1] + "/";
    }
  }

  /**
    Whatever slash the previous fragment ended with, together with what the boundary rule
    emits for `next`, amounts to exactly one "/" followed by `next` without its leading slash.
  */
  lemma BoundaryPutsOneSlash(prev: string, next: string)
    requires HasCore(next)
    ensures TrailingSlash(prev) + Boundary(prev, next) == "/" + Core(next) + TrailingSlash(next)
  {
    Decompose(next);
    var tail := Core(next) + TrailingSlash(next);
    if StartsWithSlash(next) {
      assert next == "/" + tail;
      assert next[1..] == tail;
    } else {
      assert next == tail;
    }
  }

  /** Regrouping a concatenation, stated once so that proofs about joins can cite it. */
  lemma Regroup(a: string, b: string, c: string)
    ensures (a + b) + c == a + (b + c)
  {
  }

  /** What the joiner emits after the kept fragments `ks`, as `JoinAfterMatchesSegments` states it. */
  function SegmentsAfter(prev: string, ks: seq<string>): string
  {
    if ks == [] then TrailingSlash(prev) else "/" + Segments(ks)
  }

  /** One kept fragment with a core, in front of what follows it. */
  lemma ExtendSegments(prev: string, next: string, j: string, ks: seq<string>)
    requires HasCore(next)
    requires TrailingSlash(next) + j == SegmentsAfter(next, ks)
    ensures TrailingSlash(prev) + (Boundary(prev, next) + j) == SegmentsAfter(prev, [next] + ks)
  {
    var b := Boundary(prev, next);
    var c := Core(next);
    var tn := TrailingSlash(next);
    BoundaryPutsOneSlash(prev, next);
    var all := [next] + ks;
    assert all[0] == next && all[1..] == ks;
    calc {
      TrailingSlash(prev) + (b + j);
      { Regroup(TrailingSlash(prev), b, j); }
      (TrailingSlash(prev) + b) + j;
      ("/" + c + tn) + j;
      { Regroup("/" + c, tn, j); }
      "/" + c + (tn + j);
    }
    if ks == [] {
      assert |tn + j| == |tn|;
      assert j == "";
      calc {
        "/" + c + (tn + j);
        "/" + c + tn;
        { assert Segments(all) == c + tn; }
        "/" + Segments(all);
      }
    } else {
      var rest := Segments(ks);
      calc {
        "/" + c + (tn + j);
        "/" + c + ("/" + rest);
        { Regroup(c, "/", rest); Regroup("/", c, "/" + rest); }
        "/" + (c + "/" + rest);
        { assert Segments(all) == c + "/" + rest; }
        "/" + Segments(all);
      }
    }
  }

  /** The first kept fragment with a core, in front of what follows it. */
  lemma StartSegments(next: string, j: string, ks: seq<string>)
    requires HasCore(next)
    requires TrailingSlash(next) + j == SegmentsAfter(next, ks)
    ensures next + j == SlashJoin([next] + ks)
  {
    var l := LeadingSlash(next);
    var c := Core(next);
    var tn := TrailingSlash(next);
    Decompose(next);
    var all := [next] + ks;
    assert all[0] == next && all[1..] == ks;
    calc {
      next + j;
      (l + c + tn) + j;
      { Regroup(l + c, tn, j); }
      l + c + (tn + j);
    }
    if ks == [] {
      assert |tn + j| == |tn|;
      assert j == "";
      calc {
        l + c + (tn + j);
        l + c + tn;
        { assert Segments(all) == c + tn; }
        l + Segments(all);
      }
    } else {
      var rest := Segments(ks);
      calc {
        l + c + (tn + j);
        l + c + ("/" + rest);
        { Regroup(c, "/", rest); Regroup(l, c, "/" + rest); }
        l + (c + "/" + rest);
        { assert Segments(all) == c + "/" + rest; }
        l + Segments(all);
      }
    }
  }

  /** The first non-blank fragment and the rest: the non-blank ones of the rest follow it. */
  lemma NonBlankCons(frags: seq<string>)
    requires frags != [] && frags[0] != ""
    ensures NonBlank(frags) == [frags[0]] + NonBlank(frags[1..])
    ensures AllHaveCore(NonBlank(frags)) ==> HasCore(frags[0]) && AllHaveCore(NonBlank(frags[1..]))
  {
    var ks := NonBlank(frags);
    if AllHaveCore(ks) {
      forall i | 0 <= i < |NonBlank(frags[1..])|
        ensures HasCore(NonBlank(frags[1..])[i])
      {
        assert NonBlank(frags[1..])[i] == ks[i + 1];
      }
    }
  }

  /**
    The loop after a kept fragment `prev`, over stripped fragments whose non-blank ones all
    have a core: together with `prev`'s trailing slash it emits one "/" before each
    non-blank fragment's core, and the last one's trailing slash.
  */
  lemma {:induction false} JoinAfterMatchesSegments(prev: string, frags: seq<string>)
    requires AllHaveCore(NonBlank(frags))
    ensures TrailingSlash(prev) + JoinAfter(Some(prev), frags) == SegmentsAfter(prev, NonBlank(frags))
    decreases |frags|
  {
    if frags != [] {
      var next := frags[0];
      var rest := frags[1..];
      if next == "" {
        assert NonBlank(frags) == NonBlank(rest);
        assert JoinAfter(Some(prev), frags) == JoinAfter(Some(prev), rest);
        JoinAfterMatchesSegments(prev, rest);
      } else {
        NonBlankCons(frags);
        assert !DropsBareSlash(prev, next);
        var j := JoinAfter(Some(next), rest);
        assert JoinAfter(Some(prev), frags) == Boundary(prev, next) + j;
        JoinAfterMatchesSegments(next, rest);
        ExtendSegments(prev, next, j, NonBlank(rest));
      }
    }
  }

  /** `JoinMatchesSlashJoin` for fragments that are already stripped. */
  lemma {:induction false} JoinAfterNoneMatchesSlashJoin(frags: seq<string>)
    requires AllHaveCore(NonBlank(frags))
    ensures JoinAfter(None, frags) == SlashJoin(NonBlank(frags))
    decreases |frags|
  {
    if frags != [] {
      var next := frags[0];
      var rest := frags[1..];
      if next == "" {
        assert NonBlank(frags) == NonBlank(rest);
        assert JoinAfter(None, frags) == JoinAfter(None, rest);
        JoinAfterNoneMatchesSlashJoin(rest);
      } else {
        NonBlankCons(frags);
        var j := JoinAfter(Some(next), rest);
        assert JoinAfter(None, frags) == next + j;
        JoinAfterMatchesSegments(next, rest);
        StartSegments(next, j, NonBlank(rest));
      }
    }
  }

  /**
    Joining fragments none of which is a bare slash or double slash gives the reference:
    exactly one "/" at each boundary between kept fragments, the first fragment's leading
    slash and the last fragment's trailing slash kept, blank fragments ignored.
  */
  lemma JoinMatchesSlashJoin(parts: seq<string>)
    requires Separable(parts)
    ensures Join(parts) == SlashJoin(Kept(parts))
  {
    JoinAfterNoneMatchesSlashJoin(StripAll(parts));
  }

  lemma {:induction false} JoinAfterSkipsBlank(last: Option<string>, a: seq<string>, c: seq<string>)
    ensures JoinAfter(last, a + [""] + c) == JoinAfter(last, a + c)
    decreases |a|
  {
    if a == [] {
      assert a + [""] + c == [""] + c;
      assert ([""] + c)[0] == "";
      assert ([""] + c)[1..] == c;
      assert a + c == c;
      assert JoinAfter(last, [""] + c) == "" + JoinAfter(last, c);
    } else {
      assert (a + [""] + c)[0] == a[0] && (a + c)[0] == a[0];
      assert (a + [""] + c)[1..] == a[1..] + [""] + c;
      assert (a + c)[1..] == a[1..] + c;
      JoinAfterSkipsBlank(After(last, a[0]), a[1..], c);
    }
  }

  lemma StripAllAppend(a: seq<string>, b: seq<string>)
    ensures StripAll(a + b) == StripAll(a) + StripAll(b)
  {
    assert forall i :: 0 <= i < |a| ==> (a + b)[i] == a[i];
    assert forall i :: |a| <= i < |a| + |b| ==> (a + b)[i] == b[i - |a|];
  }

  /** A fragment that is empty or only whitespace, wherever it appears, changes nothing. */
  lemma BlankFragmentIsIgnored(a: seq<string>, b: string, c: seq<string>)
    requires forall i :: 0 <= i < |b| ==> IsWhitespace(b[i])
    ensures Join(a + [b] + c) == Join(a + c)
  {
    StripIsEmptyIffBlank(b);
    StripAllAppend(a + [b], c);
    StripAllAppend(a, [b]);
    StripAllAppend(a, c);
    assert StripAll([b]) == [""];
    JoinAfterSkipsBlank(None, StripAll(a), StripAll(c));
  }

  lemma {:induction false} JoinAfterStartsWithFirstKept(frags: seq<string>)
    requires NonBlank(frags) != []
    ensures var k := NonBlank(frags)[0];
      |k| <= |JoinAfter(None, frags)| && JoinAfter(None, frags)[..|k|] == k
    decreases |frags|
  {
    var next := frags[0];
    if next == "" {
      assert NonBlank(frags) == NonBlank(frags[1..]);
      assert JoinAfter(None, frags) == JoinAfter(None, frags[1..]);
      JoinAfterStartsWithFirstKept(frags[1..]);
    } else {
      assert NonBlank(frags)[0] == next;
      var out := JoinAfter(None, frags);
      assert out == next + JoinAfter(Some(next), frags[1..]);
      assert out[..|next|] == next;
    }
  }

  lemma {:induction false} JoinAfterOfBlanks(last: Option<string>, frags: seq<string>)
    requires NonBlank(frags) == []
    ensures JoinAfter(last, frags) == ""
    decreases |frags|
  {
    if frags != [] {
      assert frags[0] == "";
      assert NonBlank(frags[1..]) == [];
      JoinAfterOfBlanks(last, frags[1..]);
    }
  }

  /**
    The first fragment that is not blank is emitted first, stripped but otherwise
    verbatim; so the join is empty exactly when every fragment is blank (joining no
    fragments at all gives "").
  */
  lemma FirstKeptComesFirst(parts: seq<string>)
    ensures Kept(parts) != [] ==>
      var k := Kept(parts)[0];
      |k| <= |Join(parts)| && Join(parts)[..|k|] == k
    ensures Join(parts) == "" <==> Kept(parts) == []
  {
    if Kept(parts) == [] {
      JoinAfterOfBlanks(None, StripAll(parts));
    } else {
      JoinAfterStartsWithFirstKept(StripAll(parts));
    }
  }

  /**
    The boundary rules on two fragments: a slash on both sides keeps one, a slash on
    neither side inserts one, and a slash on exactly one side concatenates as is.
  */
  lemma TwoFragments(a: string, b: string)
    requires Strip(a) == a && a != ""
    requires Strip(b) == b && b != ""
    ensures EndsWithSlash(a) && StartsWithSlash(b) ==> Join([a, b]) == a + b[1..]
    ensures !EndsWithSlash(a) && !StartsWithSlash(b) ==> Join([a, b]) == a + "/" + b
    ensures EndsWithSlash(a) != StartsWithSlash(b) ==> Join([a, b]) == a + b
  {
    assert StripAll([a, b]) == [a, b];
    assert [a, b][0] == a && [a, b][1..] == [b];
    assert [b][0] == b && [b][1..] == [];
    assert JoinAfter(Some(a), [b]) == Emit(Some(a), b) + JoinAfter(After(Some(a), b), []);
    assert Join([a, b]) == a + JoinAfter(Some(a), [b]);
  }

  /**
    Wherever the loop stands, when the fragment it last kept ends in a slash, a bare "/"
    emits nothing and leaves that fragment as the one the next boundary is judged against.
  */
  lemma BareSlashIsSkipped(prev: string, frags: seq<string>)
    requires EndsWithSlash(prev)
    ensures JoinAfter(Some(prev), ["/"] + frags) == JoinAfter(Some(prev), frags)
  {
    assert (["/"] + frags)[0] == "/" && (["/"] + frags)[1..] == frags;
    assert Emit(Some(prev), "/") == "" && After(Some(prev), "/") == Some(prev);
  }

  /** A bare "/" right after a fragment that ends in a slash contributes nothing. */
  lemma BareSlashAfterSlashIsDropped(a: string, p: string, rest: seq<string>)
    requires Strip(a) != "" && EndsWithSlash(Strip(a))
    requires Strip(p) == "/"
    ensures Join([a, p] + rest) == Join([a] + rest)
  {
    var sa := Strip(a);
    var r := StripAll(rest);
    StripAllAppend([a, p], rest);
    StripAllAppend([a], rest);
    assert StripAll([a, p]) == [sa, "/"];
    assert StripAll([a]) == [sa];
    assert ([sa, "/"] + r)[0] == sa && ([sa, "/"] + r)[1..] == ["/"] + r;
    assert (["/"] + r)[0] == "/" && (["/"] + r)[1..] == r;
    assert ([sa] + r)[0] == sa && ([sa] + r)[1..] == r;
    assert JoinAfter(Some(sa), ["/"] + r) == JoinAfter(Some(sa), r);
  }

  /** The characters of an endpoint id: URL-safe base64 letters, digits, "-" and "_". */
  predicate IsTokenChar(c: char)
  {
    ('A' <= c <= 'Z') || ('a' <= c <= 'z') || ('0' <= c <= '9') || c == '-' || c == '_'
  }

  predicate IsToken(id: string)
  {
    id != [] && forall i :: 0 <= i < |id| ==> IsTokenChar(id[i])
  }

  lemma EndpointPathIsKept(id: string)
    requires IsToken(id)
    ensures Strip(EndpointPath(id)) == EndpointPath(id)
    ensures StartsWithSlash(EndpointPath(id)) && !EndsWithSlash(EndpointPath(id))
    ensures EndpointPath(id)[1..] == "webhook/" + id
    ensures EndpointPath(id) == "/" + ("webhook/" + id)
  {
    var p := EndpointPath(id);
    assert p[|p| - 1] == id[|id| - 1];
    assert IsTokenChar(id[|id| - 1]);
  }

  /** Joining three parts is the loop over their three stripped fragments. */
  lemma JoinOfThree(a: string, b: string, c: string)
    ensures Join([a, b, c]) == JoinAfter(None, [Strip(a), Strip(b), Strip(c)])
  {
    assert StripAll([a, b, c]) == [Strip(a), Strip(b), Strip(c)];
  }

  /** The loop over three fragments, one iteration at a time. */
  lemma JoinAfterThree(x: string, y: string, z: string)
    ensures var lx := After(None, x);
      var ly := After(lx, y);
      JoinAfter(None, [x, y, z]) == Emit(None, x) + (Emit(lx, y) + Emit(ly, z))
  {
    var lx := After(None, x);
    var ly := After(lx, y);
    assert [x, y, z][0] == x && [x, y, z][1..] == [y, z];
    assert [y, z][0] == y && [y, z][1..] == [z];
    assert [z][0] == z && [z][1..] == [];
    assert JoinAfter(ly, [z]) == Emit(ly, z) + JoinAfter(After(ly, z), []);
  }

  /**
    With no mount path (blank or "/"), an endpoint's public URI is the public URL, one
    "/", then "webhook/" and the id, whether or not the URL ended in a slash.
  */
  lemma PublicUriWithoutMountPath(url: string, mount: string, id: string)
    requires Strip(url) == url && url != ""
    requires Strip(mount) == "" || Strip(mount) == "/"
    requires IsToken(id)
    ensures PublicUri(url, mount, id) == url + (if EndsWithSlash(url) then "" else "/") + ("webhook/" + id)
  {
    EndpointPathIsKept(id);
    var w := EndpointPath(id);
    var m := Strip(mount);
    JoinOfThree(url, mount, w);
    JoinAfterThree(url, m, w);
    var suffix := "webhook/" + id;
    var tail := Emit(After(Some(url), m), w);
    var sep := if EndsWithSlash(url) then "" else "/";
    assert PublicUri(url, mount, id) == url + (Emit(Some(url), m) + tail);
    if m == "" || EndsWithSlash(url) {
      assert Emit(Some(url), m) == "" && After(Some(url), m) == Some(url);
      assert tail == Boundary(url, w);
    } else {
      assert Emit(Some(url), m) == "/" && After(Some(url), m) == Some("/");
      assert tail == suffix;
    }
    assert Emit(Some(url), m) + tail == sep + suffix;
    Regroup(url, sep, suffix);
  }

  /**
    With a mount path that is more than slashes, an endpoint's public URI is the public URL
    without a trailing slash, "/", the mount path without its outer slashes, then
    the endpoint's path.
  */
  lemma PublicUriWithMountPath(url: string, mount: string, id: string)
    requires Strip(url) == url && HasCore(url)
    requires HasCore(Strip(mount))
    requires IsToken(id)
    ensures PublicUri(url, mount, id) == DropTrailingSlash(url) + "/" + Core(Strip(mount)) + EndpointPath(id)
  {
    EndpointPathIsKept(id);
    var w := EndpointPath(id);
    var m := Strip(mount);
    JoinOfThree(url, mount, w);
    JoinAfterThree(url, m, w);
    var suffix := "webhook/" + id;
    assert HasCore(w) && Core(w) == suffix && TrailingSlash(w) == "";
    assert !DropsBareSlash(url, m) && !DropsBareSlash(m, w);
    var bm := Boundary(url, m);
    var bw := Boundary(m, w);
    assert PublicUri(url, mount, id) == url + (bm + bw);
    Decompose(url);
    BoundaryPutsOneSlash(url, m);
    BoundaryPutsOneSlash(m, w);
    var head := DropTrailingSlash(url);
    var c := Core(m);
    assert url == head + TrailingSlash(url);
    calc {
      url + (bm + bw);
      { Regroup(head, TrailingSlash(url), bm + bw); }
      head + (TrailingSlash(url) + (bm + bw));
      { Regroup(TrailingSlash(url), bm, bw); }
      head + ((TrailingSlash(url) + bm) + bw);
      head + (("/" + c + TrailingSlash(m)) + bw);
      { Regroup("/" + c, TrailingSlash(m), bw); }
      head + ("/" + c + (TrailingSlash(m) + bw));
      { assert TrailingSlash(m) + bw == "/" + suffix + ""; assert "/" + suffix + "" == w; }
      head + ("/" + c + w);
      { Regroup(head, "/" + c, w); Regroup(head, "/", c); }
      head + "/" + c + w;
    }
  }

  /** Rows of the joiner's example table: no parts, and one part. */
  lemma JoinExamplesShort()
    ensures Join([]) == ""
    ensures Join(["abc"]) == "abc"
  {
    assert StripAll(["abc"]) == ["abc"];
    assert JoinAfter(None, ["abc"]) == "abc" + JoinAfter(Some("abc"), []);
  }

  /** A row of the joiner's example table: no slash on either side of the boundary. */
  lemma JoinExampleNoSlash()
    ensures Join(["abc", "def"]) == "abc/def"
  {
    var a, b := "abc", "def";
    assert !IsWhitespace(a[0]) && !IsWhitespace(a[|a| - 1]);
    assert !IsWhitespace(b[0]) && !IsWhitespace(b[|b| - 1]);
    TwoFragments(a, b);
  }

  /** A row of the joiner's example table: a slash only before the boundary. */
  lemma JoinExampleSlashBefore()
    ensures Join(["abc/", "def"]) == "abc/def"
  {
    var a, b := "abc/", "def";
    assert !IsWhitespace(a[0]) && !IsWhitespace(a[|a| - 1]);
    assert !IsWhitespace(b[0]) && !IsWhitespace(b[|b| - 1]);
    TwoFragments(a, b);
  }

  /** A row of the joiner's example table: a slash only after the boundary. */
  lemma JoinExampleSlashAfter()
    ensures Join(["abc", "/def"]) == "abc/def"
  {
    var a, b := "abc", "/def";
    assert !IsWhitespace(a[0]) && !IsWhitespace(a[|a| - 1]);
    assert !IsWhitespace(b[0]) && !IsWhitespace(b[|b| - 1]);
    TwoFragments(a, b);
  }

  /** A row of the joiner's example table: a slash on both sides of the boundary. */
  lemma JoinExampleSlashBoth()
    ensures Join(["abc/", "/def"]) == "abc/def"
  {
    var a, b := "abc/", "/def";
    assert !IsWhitespace(a[0]) && !IsWhitespace(a[|a| - 1]);
    assert !IsWhitespace(b[0]) && !IsWhitespace(b[|b| - 1]);
    TwoFragments(a, b);
  }

  /** A row of the joiner's example table: slashes on both sides of the boundary and at both ends. */
  lemma JoinExampleOuterSlashes()
    ensures Join(["/abc/", "/def/"]) == "/abc/def/"
  {
    var a, b := "/abc/", "/def/";
    assert !IsWhitespace(a[0]) && !IsWhitespace(a[|a| - 1]);
    assert !IsWhitespace(b[0]) && !IsWhitespace(b[|b| - 1]);
    TwoFragments(a, b);
  }

  /** A bare "/" after a fragment without a trailing slash is emitted and becomes the last fragment. */
  lemma BareSlashAfterPlainFragment(prev: string, frags: seq<string>)
    requires !EndsWithSlash(prev)
    ensures JoinAfter(Some(prev), ["/"] + frags) == "/" + JoinAfter(Some("/"), frags)
  {
    assert (["/"] + frags)[0] == "/" && (["/"] + frags)[1..] == frags;
    assert Emit(Some(prev), "/") == "/" && After(Some(prev), "/") == Some("/");
  }

  /** Fragments that are empty or have no whitespace at either end are left as they are by stripping. */
  lemma StripAllKeepsStripped(frags: seq<string>)
    requires forall i :: 0 <= i < |frags| ==>
      frags[i] == "" || (!IsWhitespace(frags[i][0]) && !IsWhitespace(frags[i][|frags[i]| - 1]))
    ensures StripAll(frags) == frags
  {
  }

  /** One iteration of the loop, peeled off the front. */
  lemma JoinAfterStep(last: Option<string>, x: string, frags: seq<string>)
    ensures JoinAfter(last, [x] + frags) == Emit(last, x) + JoinAfter(After(last, x), frags)
  {
    assert ([x] + frags)[0] == x && ([x] + frags)[1..] == frags;
  }

  /** An empty fragment emits nothing and leaves the last fragment as it was. */
  lemma EmptyFragmentIsSkipped(last: Option<string>, frags: seq<string>)
    ensures JoinAfter(last, [""] + frags) == JoinAfter(last, frags)
  {
    JoinAfterStep(last, "", frags);
  }

  /**
    A "//" fragment is not a bare slash, so it is always kept: after a slash one of its
    slashes is dropped, otherwise both are emitted, and it becomes the last fragment. A
    double slash therefore survives at that boundary.
  */
  lemma DoubleSlashIsKept(prev: string, frags: seq<string>)
    ensures JoinAfter(Some(prev), ["//"] + frags)
      == (if EndsWithSlash(prev) then "/" else "//") + JoinAfter(Some("//"), frags)
  {
    JoinAfterStep(Some(prev), "//", frags);
    assert StartsWithSlash("//") && |"//"| == 2 && "//"[1..] == "/";
  }

  /**
    The run "/", "/", "", "/" after a fragment without a trailing slash: the first "/" is
    emitted and kept as the last fragment, and the rest arrive after it and are dropped.
  */
  lemma SlashRunAfterPlainFragment(prev: string, frags: seq<string>)
    requires !EndsWithSlash(prev)
    ensures JoinAfter(Some(prev), ["/", "/", "", "/"] + frags) == "/" + JoinAfter(Some("/"), frags)
  {
    var f3 := ["/"] + frags;
    var f2 := [""] + f3;
    var f1 := ["/"] + f2;
    assert ["/", "/", "", "/"] + frags == ["/"] + f1;
    BareSlashAfterPlainFragment(prev, f1);
    BareSlashIsSkipped("/", f2);
    EmptyFragmentIsSkipped(Some("/"), f3);
    BareSlashIsSkipped("/", frags);
  }

  /**
    Bare slashes and an empty part between two plain fragments: the first "/" is emitted
    after `a`, the later ones arrive after a slash and are dropped, so exactly one slash
    separates `a` and `d`.
  */
  lemma JoinSlashRunBetween(a: string, d: string)
    requires Strip(a) == a && a != "" && !EndsWithSlash(a)
    requires Strip(d) == d && d != "" && !StartsWithSlash(d)
    ensures Join([a, "/", "/", "", "/", d]) == a + "/" + d
  {
    var tail := ["/", "/", "", "/"] + [d];
    assert Strip("/") == "/" && Strip("") == "";
    assert StripAll([a, "/", "/", "", "/", d]) == [a] + tail;
    JoinAfterStep(None, a, tail);
    SlashRunAfterPlainFragment(a, [d]);
    JoinAfterStep(Some("/"), d, []);
    Regroup(a, "/", d);
  }

  /**
    As `JoinSlashRunBetween` with two more bare slashes at the end: the first of them is
    emitted after `d`, the second is dropped.
  */
  lemma JoinSlashRunAround(a: string, d: string)
    requires Strip(a) == a && a != "" && !EndsWithSlash(a)
    requires Strip(d) == d && d != "" && !StartsWithSlash(d) && !EndsWithSlash(d)
    ensures Join([a, "/", "/", "", "/", d, "/", "/"]) == a + "/" + d + "/"
  {
    var tail := ["/", "/", "", "/"] + [d, "/", "/"];
    assert Strip("/") == "/" && Strip("") == "";
    assert StripAll([a, "/", "/", "", "/", d, "/", "/"]) == [a] + tail;
    JoinAfterStep(None, a, tail);
    SlashRunAfterPlainFragment(a, [d, "/", "/"]);
    assert [d, "/", "/"] == [d] + (["/"] + ["/"]);
    JoinAfterStep(Some("/"), d, ["/"] + ["/"]);
    BareSlashAfterPlainFragment(d, ["/"]);
    assert ["/"] == ["/"] + [];
    BareSlashIsSkipped("/", []);
    Regroup(a, "/", d + "/");
    Regroup(a + "/", d, "/");
  }

  /** A row of the joiner's example table: bare slashes and an empty part between "abc" and "def". */
  lemma JoinExampleBareSlashesBetween()
    ensures Join(["abc", "/", "/", "", "/", "def"]) == "abc/def"
  {
    assert Strip("abc") == "abc" && Strip("def") == "def";
    JoinSlashRunBetween("abc", "def");
  }

  /** A row of the joiner's example table: as the previous row with two more bare slashes at the end. */
  lemma JoinExampleBareSlashesAround()
    ensures Join(["abc", "/", "/", "", "/", "def", "/", "/"]) == "abc/def/"
  {
    assert Strip("abc") == "abc" && Strip("def") == "def";
    JoinSlashRunAround("abc", "def");
  }

  /** The fragments of the whitespace row of the joiner's example table, once stripped. */
  lemma PaddedPartsStrip()
    ensures StripAll([" /abc/ ", " /def/ ", "   ", " / "]) == ["/abc/", "/def/", "", "/"]
  {
    assert SkipLeading(" /abc/ ", 0) == 1 && SkipTrailing(" /abc/ ", 1, 7) == 6;
    assert Strip(" /abc/ ") == "/abc/";
    assert SkipLeading(" /def/ ", 0) == 1 && SkipTrailing(" /def/ ", 1, 7) == 6;
    assert Strip(" /def/ ") == "/def/";
    StripIsEmptyIffBlank("   ");
    assert SkipLeading(" / ", 0) == 1 && SkipTrailing(" / ", 1, 3) == 2;
    assert Strip(" / ") == "/";
  }

  /**
    A row of the joiner's example table: padded parts, a whitespace-only part and a padded
    bare slash. Stripped, the two fragments meet slash to slash and the final "/" arrives
    after a slash and is dropped.
  */
  lemma JoinExamplePaddedParts()
    ensures Join([" /abc/ ", " /def/ ", "   ", " / "]) == "/abc/def/"
  {
    PaddedPartsStrip();
    var frags := ["/abc/", "/def/", "", "/"];
    assert ["/"] == ["/"] + [];
    BareSlashIsSkipped("/def/", []);
    assert ["", "/"] == [""] + ["/"];
    JoinAfterStep(Some("/def/"), "", ["/"]);
    assert ["/def/", "", "/"] == ["/def/"] + ["", "/"];
    JoinAfterStep(Some("/abc/"), "/def/", ["", "/"]);
    assert frags == ["/abc/"] + ["/def/", "", "/"];
    JoinAfterStep(None, "/abc/", ["/def/", "", "/"]);
    SpellPadded();
  }

  lemma SpellPadded()
    ensures "/abc/" + ("/def/"[1..] + "") == "/abc/def/"
  {
  }

  /** The loop after the URL in the URL row of the joiner's example table. */
  lemma UrlPartsTail()
    ensures JoinAfter(Some("https://foo.com:123/"), ["/", "/def/", "", "efg", "hij/"]) == "def/" + ("efg" + "/hij/")
  {
    assert ["hij/"] == ["hij/"] + [];
    JoinAfterStep(Some("efg"), "hij/", []);
    assert ["efg", "hij/"] == ["efg"] + ["hij/"];
    JoinAfterStep(Some("/def/"), "efg", ["hij/"]);
    assert ["", "efg", "hij/"] == [""] + ["efg", "hij/"];
    JoinAfterStep(Some("/def/"), "", ["efg", "hij/"]);
    assert ["/def/", "", "efg", "hij/"] == ["/def/"] + ["", "efg", "hij/"];
    JoinAfterStep(Some("https://foo.com:123/"), "/def/", ["", "efg", "hij/"]);
    assert ["/", "/def/", "", "efg", "hij/"] == ["/"] + ["/def/", "", "efg", "hij/"];
    BareSlashIsSkipped("https://foo.com:123/", ["/def/", "", "efg", "hij/"]);
  }

  /**
    A row of the joiner's example table: a URL ending in a slash, a bare "/" (dropped), a
    fragment with slashes on both sides, an empty part, and two plain fragments.
  */
  lemma JoinExampleUrlParts()
    ensures Join(["https://foo.com:123/", "/", "/def/", "", "efg", "hij/"]) == "https://foo.com:123/def/efg/hij/"
  {
    var url := "https://foo.com:123/";
    var frags := [url, "/", "/def/", "", "efg", "hij/"];
    assert !IsWhitespace(url[0]) && !IsWhitespace(url[|url| - 1]);
    StripAllKeepsStripped(frags);
    assert frags == [url] + ["/", "/def/", "", "efg", "hij/"];
    JoinAfterStep(None, url, ["/", "/def/", "", "efg", "hij/"]);
    UrlPartsTail();
    SpellUrlParts();
  }

  lemma SpellUrlParts()
    ensures "https://foo.com:123/" + ("def/" + ("efg" + "/hij/")) == "https://foo.com:123/def/efg/hij/"
  {
  }

  /** A row of the public-URI example table: a bare "/" mount point after a URL ending in a slash. */
  lemma PublicUriExampleBareMount()
    ensures PublicUri("https://foo.bar:123/", "/", "abc123") == "https://foo.bar:123/webhook/abc123"
  {
    var url := "https://foo.bar:123/";
    assert !IsWhitespace(url[0]) && !IsWhitespace(url[|url| - 1]);
    assert Strip("/") == "/";
    assert IsToken("abc123");
    PublicUriWithoutMountPath(url, "/", "abc123");
    BareMountSpelling();
  }

  lemma BareMountSpelling()
    ensures "https://foo.bar:123/" + "" + ("webhook/" + "abc123") == "https://foo.bar:123/webhook/abc123"
  {
  }

  /** A row of the public-URI example table: a named mount point after a URL without a trailing slash. */
  lemma PublicUriExampleNamedMount()
    ensures PublicUri("http://foo.bar.baz:456", "api", "DEF456") == "http://foo.bar.baz:456/api/webhook/DEF456"
  {
    var url := "http://foo.bar.baz:456";
    assert !IsWhitespace(url[0]) && !IsWhitespace(url[|url| - 1]);
    assert Strip("api") == "api";
    assert IsToken("DEF456");
    assert HasCore(url) && HasCore("api") && Core("api") == "api" && DropTrailingSlash(url) == url;
    PublicUriWithMountPath(url, "api", "DEF456");
    NamedMountSpelling();
  }

  lemma NamedMountSpelling()
    ensures "http://foo.bar.baz:456" + "/" + "api" + EndpointPath("DEF456") == "http://foo.bar.baz:456/api/webhook/DEF456"
  {
  }
}

=== FILE: schema.dfy ===
/** The records the collector captures and hands back: one inbound HTTP call with its headers. */
module Schema {
  import opened Wrappers

  /** An instant on the server's clock. Any fixed unit will do; differences of two instants are durations. */
  type Time = int

  /** One HTTP header as received; the enclosing list keeps duplicates and their order. */
  datatype CollectedHeader = CollectedHeader(name: string, value: string)

  /** One captured inbound call. The registry never looks inside it: it only queues and returns it. */
  datatype CollectedNotification = CollectedNotification(
    httpMethod: string,
    headers: seq<CollectedHeader>,
    body: string,
    receivedAt: Time,
    remote: Option<string>)
}

=== FILE: store_properties.dfy ===
/**
  Properties of the endpoint registry that relate several operations: the bounds every
  sequence of operations keeps, the timestamp order a forward-moving clock keeps, FIFO
  delivery, idempotent deletion, and the scenarios the registry's unit tests walk through,
  with the tests' bounds and steps.
*/
module StoreProperties {
  import opened Wrappers
  import opened Schema
  import opened EndpointStore

  /** One registry operation, with the inputs `EndpointStore` takes from the id generator and the clock. */
  datatype Command =
    | Create(newId: EndpointId, now: Time)
    | Update(id: EndpointId, enabled: bool, now: Time)
    | Delete(id: EndpointId)
    | Add(id: EndpointId, notification: CollectedNotification, now: Time)
    | Collect(id: EndpointId, now: Time)
    | Cleanup(sweepAt: Time, maxIdle: int, maxDuration: int)

  /** The store after one command, whatever the command answered. */
  function Step(s: Store, c: Command): (r: Store)
    ensures SameLimits(s, r)
    ensures WithinBounds(s) && 0 <= s.maxEndpointNotifications ==> WithinBounds(r)
  {
    match c
    case Create(newId, now) => CreateEndpoint(s, newId, now).store
    case Update(id, enabled, now) => UpdateEndpoint(s, id, enabled, now).store
    case Delete(id) => TryDeleteEndpoint(s, id).0
    case Add(id, n, now) => AddNotification(s, id, n, now).store
    case Collect(id, now) => CollectNotifications(s, id, now).store
    case Cleanup(sweepAt, maxIdle, maxDuration) => Sweep(s, sweepAt, maxIdle, maxDuration)
  }

  /** The store after running `cs` in order. */
  function Run(s: Store, cs: seq<Command>): Store
    decreases |cs|
  {
    if cs == [] then s else Run(Step(s, cs[0]), cs[1..])
  }

  /**
    Starting within bounds, any sequence of operations stays within bounds: never more
    than `maxActiveEndpoints` endpoints, never more than `maxEndpointNotifications` queued
    on one endpoint.
  */
  lemma {:induction false} RunStaysWithinBounds(s: Store, cs: seq<Command>)
    requires WithinBounds(s) && 0 <= s.maxEndpointNotifications
    ensures WithinBounds(Run(s, cs))
    ensures SameLimits(s, Run(s, cs))
    decreases |cs|
  {
    if cs != [] {
      var s' := Step(s, cs[0]);
      assert WithinBounds(s') && SameLimits(s, s');
      RunStaysWithinBounds(s', cs[1..]);
    }
  }

  /** Every endpoint was created no later than it was last touched, and neither is after `clock`. */
  ghost predicate TimesOrdered(s: Store, clock: Time)
  {
    forall id :: id in s.endpoints ==> s.endpoints[id].createdAt <= s.endpoints[id].interactedAt <= clock
  }

  /** The clock reading a command stamps onto the store, if any. */
  function Stamp(c: Command): Option<Time>
  {
    match c
    case Create(_, now) => Some(now)
    case Update(_, _, now) => Some(now)
    case Add(_, _, now) => Some(now)
    case Collect(_, now) => Some(now)
    case Delete(_) => None
    case Cleanup(_, _, _) => None
  }

  /** The clock after a command that was issued when it read `clock`. */
  function Advance(c: Command, clock: Time): Time
  {
    match Stamp(c)
    case Some(now) => now
    case None => clock
  }

  /** Every stamping command reads the clock no earlier than the one before it. */
  ghost predicate ClockNeverGoesBack(cs: seq<Command>, clock: Time)
    decreases |cs|
  {
    cs == [] || ((Stamp(cs[0]).None? || Stamp(cs[0]).value >= clock) && ClockNeverGoesBack(cs[1..], Advance(cs[0], clock)))
  }

  /** The clock after running all of `cs`. */
  function FinalClock(cs: seq<Command>, clock: Time): Time
    decreases |cs|
  {
    if cs == [] then clock else FinalClock(cs[1..], Advance(cs[0], clock))
  }

  /** An operation that stamps `now` on one endpoint, read no earlier than `clock`, keeps the order. */
  lemma TouchKeepsTimesOrdered(s: Store, t: Store, id: EndpointId, clock: Time, now: Time)
    requires TimesOrdered(s, clock) && clock <= now
    requires t.endpoints.Keys <= s.endpoints.Keys + {id}
    requires OthersUnchanged(s.endpoints, t.endpoints, id)
    requires id in t.endpoints ==> t.endpoints[id].interactedAt == now
    requires id in t.endpoints ==> t.endpoints[id].createdAt <= now
    ensures TimesOrdered(t, now)
  {
    forall k | k in t.endpoints
      ensures t.endpoints[k].createdAt <= t.endpoints[k].interactedAt <= now
    {
      if k != id {
        assert k in s.endpoints && t.endpoints[k] == s.endpoints[k];
      }
    }
  }

  lemma StepKeepsTimesOrdered(s: Store, c: Command, clock: Time)
    requires TimesOrdered(s, clock)
    requires Stamp(c).None? || Stamp(c).value >= clock
    ensures TimesOrdered(Step(s, c), Advance(c, clock))
  {
    match c
    case Create(newId, now) =>
      var r := CreateEndpoint(s, newId, now);
      if r.result.Ok? {
        TouchKeepsTimesOrdered(s, r.store, newId, clock, now);
      }
    case Update(id, enabled, now) =>
      TouchKeepsTimesOrdered(s, UpdateEndpoint(s, id, enabled, now).store, id, clock, now);
    case Add(id, n, now) =>
      var r := AddNotification(s, id, n, now);
      if r.result.Ok? {
        TouchKeepsTimesOrdered(s, r.store, id, clock, now);
      }
    case Collect(id, now) =>
      TouchKeepsTimesOrdered(s, CollectNotifications(s, id, now).store, id, clock, now);
    case Delete(id) =>
    case Cleanup(sweepAt, maxIdle, maxDuration) =>
  }

  /**
    As long as the clock never goes back, every endpoint's last interaction is at or after
    its creation, and neither lies in the future.
  */
  lemma {:induction false} RunKeepsTimesOrdered(s: Store, cs: seq<Command>, clock: Time)
    requires TimesOrdered(s, clock)
    requires ClockNeverGoesBack(cs, clock)
    ensures TimesOrdered(Run(s, cs), FinalClock(cs, clock))
    decreases |cs|
  {
    if cs != [] {
      StepKeepsTimesOrdered(s, cs[0], clock);
      RunKeepsTimesOrdered(Step(s, cs[0]), cs[1..], Advance(cs[0], clock));
    }
  }

  /** The store after adding every notification of `ns`, in order, to `id`. */
  function AddAll(s: Store, id: EndpointId, ns: seq<CollectedNotification>, now: Time): Store
    decreases |ns|
  {
    if ns == [] then s else AddAll(AddNotification(s, id, ns[0], now).store, id, ns[1..], now)
  }

  /**
    Adding notifications one by one to an enabled endpoint with room for all of them
    appends them at the tail of its queue, in arrival order, and touches nothing else.
  */
  lemma {:induction false} AddAllAppends(s: Store, id: EndpointId, ns: seq<CollectedNotification>, now: Time)
    requires id in s.endpoints && s.endpoints[id].enabled
    requires |s.endpoints[id].notifications| + |ns| <= s.maxEndpointNotifications
    ensures var s' := AddAll(s, id, ns, now);
      && s'.endpoints.Keys == s.endpoints.Keys
      && s'.endpoints[id].notifications == s.endpoints[id].notifications + ns
      && s'.endpoints[id].enabled
      && OthersUnchanged(s.endpoints, s'.endpoints, id)
      && SameLimits(s, s')
    decreases |ns|
  {
    if ns != [] {
      var s1 := AddNotification(s, id, ns[0], now).store;
      AddAllAppends(s1, id, ns[1..], now);
      assert s.endpoints[id].notifications + ns == (s.endpoints[id].notifications + [ns[0]]) + ns[1..];
    }
  }

  /**
    FIFO delivery: after notifications arrive on an endpoint, collecting returns what was
    queued before followed by the arrivals in arrival order; collecting again right away
    returns nothing.
  */
  lemma CollectReturnsArrivalOrder(s: Store, id: EndpointId, ns: seq<CollectedNotification>, now: Time, t1: Time, t2: Time)
    requires id in s.endpoints && s.endpoints[id].enabled
    requires |s.endpoints[id].notifications| + |ns| <= s.maxEndpointNotifications
    ensures var first := CollectNotifications(AddAll(s, id, ns, now), id, t1);
      && first.result == Ok(s.endpoints[id].notifications + ns)
      && CollectNotifications(first.store, id, t2).result == Ok([])
  {
    AddAllAppends(s, id, ns, now);
  }

  /** Setting the same flag twice is setting it once, at the later time. */
  lemma UpdateIsIdempotent(s: Store, id: EndpointId, enabled: bool, t1: Time, t2: Time)
    ensures var first := UpdateEndpoint(s, id, enabled, t1);
      UpdateEndpoint(first.store, id, enabled, t2) == UpdateEndpoint(s, id, enabled, t2)
  {
    if id in s.endpoints {
      var first := UpdateEndpoint(s, id, enabled, t1).store;
      assert first.endpoints[id := first.endpoints[id].(enabled := enabled, interactedAt := t2)]
          == s.endpoints[id := s.endpoints[id].(enabled := enabled, interactedAt := t2)];
    }
  }

  /** Creates one endpoint per id of `newIds`, in order: the final store and the ids that were granted. */
  function CreateAll(s: Store, newIds: seq<EndpointId>, now: Time): (Store, seq<EndpointId>)
    decreases |newIds|
  {
    if newIds == [] then (s, [])
    else
      var r := CreateEndpoint(s, newIds[0], now);
      var (t, granted) := CreateAll(r.store, newIds[1..], now);
      if r.result.Ok? then (t, [newIds[0]] + granted) else (t, granted)
  }

  /** No id occurs twice in `ids`. */
  predicate Distinct(ids: seq<EndpointId>)
  {
    forall i, j :: 0 <= i < j < |ids| ==> ids[i] != ids[j]
  }

  lemma ConsKeepsDistinct(x: EndpointId, ids: seq<EndpointId>)
    requires Distinct(ids) && x !in ids
    ensures Distinct([x] + ids)
  {
    var xs := [x] + ids;
    forall i, j | 0 <= i < j < |xs|
      ensures xs[i] != xs[j]
    {
      assert xs[j] == ids[j - 1];
      if i > 0 {
        assert xs[i] == ids[i - 1];
      }
    }
  }

  /**
    Over a run of creations, the ids that are granted are pairwise distinct, none of them
    was registered before, and all of them are registered afterwards.
  */
  lemma {:induction false} GrantedIdsAreDistinct(s: Store, newIds: seq<EndpointId>, now: Time)
    ensures var (t, granted) := CreateAll(s, newIds, now);
      && s.endpoints.Keys <= t.endpoints.Keys
      && (forall id :: id in granted ==> id !in s.endpoints && id in t.endpoints)
      && Distinct(granted)
    decreases |newIds|
  {
    if newIds != [] {
      var r := CreateEndpoint(s, newIds[0], now);
      var (t, rest) := CreateAll(r.store, newIds[1..], now);
      GrantedIdsAreDistinct(r.store, newIds[1..], now);
      assert s.endpoints.Keys <= r.store.endpoints.Keys;
      if r.result.Ok? {
        assert newIds[0] !in s.endpoints && newIds[0] in r.store.endpoints;
        assert newIds[0] !in rest;
        ConsKeepsDistinct(newIds[0], rest);
      }
    }
  }

  /** Deleting twice: the first call reports whether `id` existed, the second reports false and changes nothing. */
  lemma DeleteIsIdempotent(s: Store, id: EndpointId)
    ensures var (s1, existed) := TryDeleteEndpoint(s, id);
      && (existed <==> id in s.endpoints)
      && TryDeleteEndpoint(s1, id) == (s1, false)
  {
  }

  /**
    A sweep keeps an endpoint that is neither too old nor idle for too long, even one
    created after the sweep's `now`, and evicts it otherwise.
  */
  lemma SweepKeepsExactlyTheUnexpired(s: Store, id: EndpointId, now: Time, maxIdle: int, maxDuration: int)
    requires id in s.endpoints
    ensures var e := s.endpoints[id];
      id in Sweep(s, now, maxIdle, maxDuration).endpoints
      <==> now - e.createdAt <= maxDuration && now - e.interactedAt <= maxIdle
    ensures s.endpoints[id].createdAt > now && s.endpoints[id].interactedAt >= s.endpoints[id].createdAt
            && maxIdle >= 0 && maxDuration >= 0
            ==> Sweep(s, now, maxIdle, maxDuration).endpoints[id] == s.endpoints[id]
  {
  }

  /** A notification used only to make the scenarios concrete. */
  function Note(tag: string): CollectedNotification
  {
    CollectedNotification("POST", [], tag, 0, None)
  }

  /**
    On an empty store every operation that names an endpoint fails with 404 (deletion
    reports false instead), and none of them, nor a sweep, changes the store.
  */
  lemma EmptyStoreKnowsNoEndpoint(id: EndpointId, n: CollectedNotification, enabled: bool, now: Time, maxIdle: int, maxDuration: int)
    ensures var s := NewStore(3, 2);
      && CollectNotifications(s, id, now) == Reply(s, Err(NotFound))
      && TryDeleteEndpoint(s, id) == (s, false)
      && Sweep(s, now, maxIdle, maxDuration) == s
      && AddNotification(s, id, n, now) == Reply(s, Err(NotFound))
      && UpdateEndpoint(s, id, enabled, now) == Reply(s, Err(NotFound))
  {
    var s := NewStore(3, 2);
    assert Sweep(s, now, maxIdle, maxDuration).endpoints == map[];
  }

  /**
    A full store refuses every creation with 507 and leaves itself as it was; deleting one
    of its endpoints makes room for exactly the creation that was refused.
  */
  lemma FullStoreRefusesUntilDelete(s: Store, victim: EndpointId, newId: EndpointId, now: Time)
    requires |s.endpoints| == s.maxActiveEndpoints
    requires victim in s.endpoints
    requires newId !in s.endpoints || newId == victim
    ensures CreateEndpoint(s, newId, now) == Reply(s, Err(InsufficientStorage))
    ensures var (s2, deleted) := TryDeleteEndpoint(s, victim);
      deleted && CreateEndpoint(s2, newId, now).result == Ok(newId)
  {
    var (s2, deleted) := TryDeleteEndpoint(s, victim);
    assert s2.endpoints.Keys == s.endpoints.Keys - {victim};
    assert |s2.endpoints| == |s.endpoints| - 1;
  }

  /** The first two creations of the basic-operations scenario. */
  lemma FillTwo()
    ensures var r1 := CreateEndpoint(NewStore(4, 3), "id1", 0);
      var r2 := CreateEndpoint(r1.store, "id2", 0);
      && r1.result == Ok("id1") && r2.result == Ok("id2")
      && r2.store.endpoints.Keys == {"id1", "id2"} && r2.store.maxEndpointNotifications == 3
      && r2.store.endpoints["id1"] == EndpointData([], true, 0, 0)
  {
    var r1 := CreateEndpoint(NewStore(4, 3), "id1", 0);
    assert r1.store.endpoints.Keys == {"id1"};
  }

  /**
    The opening of the basic-operations scenario: in a store with room for four endpoints
    and three notifications each, four creations with distinct ids all succeed; the store
    is then full, and "id1" is a fresh, enabled endpoint with an empty queue.
  */
  lemma FillFour()
    ensures var r1 := CreateEndpoint(NewStore(4, 3), "id1", 0);
      var r2 := CreateEndpoint(r1.store, "id2", 0);
      var r3 := CreateEndpoint(r2.store, "id3", 0);
      var r4 := CreateEndpoint(r3.store, "id4", 0);
      && r1.result == Ok("id1") && r2.result == Ok("id2") && r3.result == Ok("id3") && r4.result == Ok("id4")
      && |r4.store.endpoints| == r4.store.maxActiveEndpoints == 4 && r4.store.maxEndpointNotifications == 3
      && r4.store.endpoints["id1"] == EndpointData([], true, 0, 0)
  {
    FillTwo();
    var r1 := CreateEndpoint(NewStore(4, 3), "id1", 0);
    var r2 := CreateEndpoint(r1.store, "id2", 0);
    var r3 := CreateEndpoint(r2.store, "id3", 0);
    assert r3.store.endpoints.Keys == {"id1", "id2", "id3"};
  }

  /**
    The capacity step of the basic-operations scenario: after the four creations a fifth
    fails with 507 and leaves the store as it was.
  */
  lemma CapacityScenario()
    ensures var r1 := CreateEndpoint(NewStore(4, 3), "id1", 0);
      var r2 := CreateEndpoint(r1.store, "id2", 0);
      var r3 := CreateEndpoint(r2.store, "id3", 0);
      var r4 := CreateEndpoint(r3.store, "id4", 0);
      CreateEndpoint(r4.store, "id5", 0) == Reply(r4.store, Err(InsufficientStorage))
  {
    FillFour();
  }

  /**
    The queue steps of the basic-operations scenario, for a fresh endpoint of a store with
    room for three notifications (as `FillFour` leaves "id1"): three adds succeed, a fourth fails with 507 and changes
    nothing, collecting returns the three in arrival order, and collecting again returns
    nothing.
  */
  lemma QueueBoundScenario(s: Store, id: EndpointId, t: Time)
    requires s.maxEndpointNotifications == 3
    requires id in s.endpoints && s.endpoints[id] == EndpointData([], true, t, t)
    ensures var a1 := AddNotification(s, id, Note("n1"), t);
      var a2 := AddNotification(a1.store, id, Note("n2"), t);
      var a3 := AddNotification(a2.store, id, Note("n3"), t);
      var a4 := AddNotification(a3.store, id, Note("n4"), t);
      var c1 := CollectNotifications(a4.store, id, t);
      var c2 := CollectNotifications(c1.store, id, t);
      && a1.result.Ok? && a2.result.Ok? && a3.result.Ok?
      && a4 == Reply(a3.store, Err(InsufficientStorage))
      && c1.result == Ok([Note("n1"), Note("n2"), Note("n3")])
      && c2.result == Ok([])
  {
    var a1 := AddNotification(s, id, Note("n1"), t);
    assert a1.store.endpoints[id].notifications == [Note("n1")];
    var a2 := AddNotification(a1.store, id, Note("n2"), t);
    assert a2.store.endpoints[id].notifications == [Note("n1"), Note("n2")];
    var a3 := AddNotification(a2.store, id, Note("n3"), t);
    assert a3.store.endpoints[id].notifications == [Note("n1"), Note("n2"), Note("n3")];
  }

  /**
    The deletion steps of the basic-operations scenario: after one more notification is
    offered to `id1`, deleting `id1` answers true and a second delete answers false; deleting `id2` answers
    true; afterwards adding to either fails with 404.
  */
  lemma DeleteScenario(s: Store, id1: EndpointId, id2: EndpointId, n: CollectedNotification, t: Time)
    requires id1 in s.endpoints && id2 in s.endpoints && id1 != id2
    ensures var s0 := AddNotification(s, id1, Note("n9"), t).store;
      var (s1, d1) := TryDeleteEndpoint(s0, id1);
      var (s2, d2) := TryDeleteEndpoint(s1, id1);
      var (s3, d3) := TryDeleteEndpoint(s2, id2);
      && d1 && !d2 && d3
      && AddNotification(s3, id1, n, t) == Reply(s3, Err(NotFound))
      && AddNotification(s3, id2, n, t) == Reply(s3, Err(NotFound))
  {
  }

  /**
    The disable scenario, for two fresh endpoints of a store with room for 99 notifications
    each (as two creations leave them): a notification sent to `id1` while it is disabled is
    refused with 500 and never delivered, the ones before and after are, and `id2` receives
    its own notification meanwhile.
  */
  lemma DisabledScenario(s: Store, id1: EndpointId, id2: EndpointId, t: Time)
    requires s.maxEndpointNotifications == 99 && id1 != id2
    requires id1 in s.endpoints && s.endpoints[id1] == EndpointData([], true, t, t)
    requires id2 in s.endpoints && s.endpoints[id2] == EndpointData([], true, t, t)
    ensures var a1 := AddNotification(s, id1, Note("n1"), t);
      var u1 := UpdateEndpoint(a1.store, id1, false, t);
      var a2 := AddNotification(u1.store, id1, Note("n2"), t);
      var a3 := AddNotification(a2.store, id2, Note("n3"), t);
      var u2 := UpdateEndpoint(a3.store, id1, true, t);
      var a4 := AddNotification(u2.store, id1, Note("n4"), t);
      var c1 := CollectNotifications(a4.store, id1, t);
      var c2 := CollectNotifications(c1.store, id2, t);
      && a2 == Reply(u1.store, Err(InternalServerError))
      && c1.result == Ok([Note("n1"), Note("n4")])
      && c2.result == Ok([Note("n3")])
  {
    var a1 := AddNotification(s, id1, Note("n1"), t);
    assert a1.store.endpoints[id1].notifications == [Note("n1")];
    var u1 := UpdateEndpoint(a1.store, id1, false, t);
    var a2 := AddNotification(u1.store, id1, Note("n2"), t);
    var a3 := AddNotification(a2.store, id2, Note("n3"), t);
    assert a3.store.endpoints[id2].notifications == [Note("n3")];
    assert a3.store.endpoints[id1].notifications == [Note("n1")];
    var u2 := UpdateEndpoint(a3.store, id1, true, t);
    assert u2.store.endpoints[id1].enabled;
    var a4 := AddNotification(u2.store, id1, Note("n4"), t);
    assert a4.store.endpoints[id1].notifications == [Note("n1"), Note("n4")];
    assert a4.store.endpoints[id2].notifications == [Note("n3")];
  }

  /**
    The expiry scenario, with a 60 s idle limit and a 180 s lifetime at `now` = 1000:
    one endpoint is too old despite recent use, one has been idle too long, one is recent,
    and one was created after `now`; only the last two survive.
  */
  lemma ExpiryScenario()
    ensures var aged := EndpointData([Note("1")], true, 800, 995);
      var idle := EndpointData([Note("2")], true, 900, 910);
      var recent := EndpointData([Note("3")], true, 980, 980);
      var future := EndpointData([Note("4")], true, 1020, 1020);
      var s := Store(99, 99, map["aged" := aged, "idle" := idle, "recent" := recent, "future" := future]);
      Sweep(s, 1000, 60, 180).endpoints == map["recent" := recent, "future" := future]
  {
    var aged := EndpointData([Note("1")], true, 800, 995);
    var idle := EndpointData([Note("2")], true, 900, 910);
    var recent := EndpointData([Note("3")], true, 980, 980);
    var future := EndpointData([Note("4")], true, 1020, 1020);
    var s := Store(99, 99, map["aged" := aged, "idle" := idle, "recent" := recent, "future" := future]);
    var r := Sweep(s, 1000, 60, 180).endpoints;
    assert Expired(aged, 1000, 60, 180) && Expired(idle, 1000, 60, 180);
    assert !Expired(recent, 1000, 60, 180) && !Expired(future, 1000, 60, 180);
    assert s.endpoints.Keys == {"aged", "idle", "recent", "future"};
    assert r.Keys == {"recent", "future"};
  }

  /**
    The endpoint record as `EndpointData` in endpoint_store.py initialises it: the clock is read twice, first for
    the last-interaction time and then for the creation time.
  */
  function EndpointDataAsWritten(firstReading: Time, secondReading: Time): (e: EndpointData)
    requires firstReading <= secondReading
    ensures e.enabled && e.notifications == []
    ensures e.interactedAt == firstReading && e.createdAt == secondReading
  {
    EndpointData(notifications := [], enabled := true, interactedAt := firstReading, createdAt := secondReading)
  }

  /**
    With two clock readings one tick apart, the record starts out last touched before it
    was created, against the rule that the last interaction is never before creation.
  */
  lemma AsWrittenCreationCanPrecedeItself()
    ensures var e := EndpointDataAsWritten(0, 1);
      e.interactedAt < e.createdAt
  {
  }

  /** With a single clock reading, a new endpoint satisfies the ordering from its first moment on. */
  lemma SingleReadingCreationIsOrdered(s: Store, newId: EndpointId, now: Time)
    requires TimesOrdered(s, now)
    ensures TimesOrdered(CreateEndpoint(s, newId, now).store, now)
    ensures CreateEndpoint(s, newId, now).result.Ok? ==>
      CreateEndpoint(s, newId, now).store.endpoints[newId].createdAt
      <= CreateEndpoint(s, newId, now).store.endpoints[newId].interactedAt
  {
  }
}

=== FILE: wrappers.dfy ===
/** Optional values and results shared by the registry and the path helpers. */
module Wrappers {

  /** A value that may be absent (Python's `X | None`). */
  datatype Option<+T> = None | Some(value: T)

  /** The outcome of an operation that can fail with an error value instead of raising. */
  datatype Result<+T, +E> = Ok(value: T) | Err(error: E)
}
